=== FILE: README.md ===
# Inspection runner and HTML report — a Dafny model

This project models the analysis core of the Gradle inspection plugin's
runner: the loop that tallies the problems found by IntelliJ inspections
against the error and warning budgets and files them into the XML report,
the selection of inspections from the registrar, the pinning of a problem to a
file position with its message and location renderings, and the annotated
source view of the HTML report (the code block around a problem, its two-line
window and its ellipsis markers).

The host is replaced by small immutable values:

- a problem (`Diagnostics.Problem`) is its message template, its highlight
  type and its PSI element, which may be missing;
- a document is its table of line start offsets;
- the PSI tree (`Psi.Element`) is a tree whose nodes carry the line the
  host's `getLine` reports; an element is identified by its path of child
  indices, so the source's reference identity becomes equality of paths;
- an inspection's output for a file is a function of the tool and the file
  path (`Runner.Analyzer`);
- a file of the tree either resolves to a document or stops at the first of
  the three missing pieces (virtual file, PSI file, document);
- the XML report is an abstract element tree, and the HTML is a tree of tags
  and text.

Modules: `Wrappers` (Option/Result), `Seqs` (regrouping concatenations), `Text` (replacement, decimal numbers),
`Psi`, `Diagnostics`, `Selection`, `XmlReport`, `Tally`, `Runner`,
`HtmlContext` (`findElementToPrint`, `printSmartly`) and `HtmlReport`
(problem tags, `generateBody`, `report`).

Modelling choices:

- The pinned line and column are stored 0-based. They become 1-based only when
  they are written out (`line + 1`, `row + 1`).
- The inspection's configured level is not an override. It is used only when
  the highlight type does not decide the level.
- A tool that is neither local nor global is skipped like a global one. Only
  the log message differs.
- Configured class names form a list. A class listed twice is run twice, and
  its second result list replaces the first in the results map. The entry keeps
  its first position, as in a `LinkedHashMap`.
- An exception from inside the analysis is not tagged with the analyzer. It
  is rewrapped in a `GradleException` carrying its message.

## Model

| member | source | states |
|---|---|---|
| `Tally.Level` | runner/src/main/kotlin/org/jetbrains/idea/inspections/InspectionRunner.kt:55-60 | ERROR and GENERIC_ERROR give ERROR, WEAK_WARNING gives WARN, INFORMATION gives INFO, any other type gives the inspection's default; a missing level can only come from a missing default |
| `Tally.Record` | runner/src/main/kotlin/org/jetbrains/idea/inspections/InspectionRunner.kt:94-104 | the problem element carries the file name, the line and column made 1-based (hence at least 1), the inspection class, the severity named after the level, the inspection's display name and the rendered description |
| `Tally.SeverityName` | runner/src/main/kotlin/org/jetbrains/idea/inspections/InspectionRunner.kt:99-103 | the severity attribute is ERROR exactly for the ERROR level, WARNING exactly for WARN, and INFORMATION for every other level |
| `Tally.StopFor` | runner/src/main/kotlin/org/jetbrains/idea/inspections/InspectionRunner.kt:111-120 | the loop goes on exactly when neither count is over its threshold; the error threshold is checked first, so a warning stop implies the errors were within budget |
| `Tally.Retain` | runner/src/main/kotlin/org/jetbrains/idea/inspections/InspectionRunner.kt:84 | exactly the problems that get a level, each with that level: every retained entry is such a problem and every such problem is retained; when no problem gets one nothing is retained |
| `Tally.RetainAppend` | runner/src/main/kotlin/org/jetbrains/idea/inspections/InspectionRunner.kt:82-84 | the problems are considered one after another: retaining from two runs of problems is retaining from the first and then from the second, so levelled problems keep their order |
| `Tally.TallyOutcome` | runner/src/main/kotlin/org/jetbrains/idea/inspections/InspectionRunner.kt:80-122 | problems without a level play no part; the loop succeeds iff no prefix of the levelled problems breaches a threshold, and then holds the counts and groups of all of them; otherwise it holds exactly those of the shortest breaching prefix (the breaching problem included) |
| `Tally.FirstBreachUnique` | runner/src/main/kotlin/org/jetbrains/idea/inspections/InspectionRunner.kt:111-120 | the stopping point is determined: only one prefix is the first to breach |
| `Tally.GroupsPartition` | runner/src/main/kotlin/org/jetbrains/idea/inspections/InspectionRunner.kt:85-109 | the error group has one entry per ERROR problem, the warning group one per WARN problem, and every problem is filed in exactly one of the three groups |
| `Tally.EmptyTally` | runner/src/main/kotlin/org/jetbrains/idea/inspections/InspectionRunner.kt:67-80 | with no problems the tally succeeds with zero counts and three empty groups |
| `XmlReport.ReadProblemElement` | runner/src/main/kotlin/org/jetbrains/idea/inspections/InspectionRunner.kt:94-104 | a problem element reads back as the same seven fields |
| `XmlReport.ReadReportElement` | runner/src/main/kotlin/org/jetbrains/idea/inspections/InspectionRunner.kt:124-131 | the report root reads back as its three groups errors, warnings, infos, in that order, each entry intact and in filing order |
| `Text.ParseNatToString` | runner/src/main/kotlin/org/jetbrains/idea/inspections/InspectionRunner.kt:96-97 | a number written in decimal reads back as the same number |
| `Selection.Find` | runner/src/main/kotlin/org/jetbrains/idea/inspections/InspectionRunner.kt:187 | finds the first tool whose class is the name, and finds none exactly when no tool has that class |
| `Selection.Inherit` | runner/src/main/kotlin/org/jetbrains/idea/inspections/InspectionRunner.kt:181-185 | every registered tool, in registry order, under its own class name |
| `Selection.Lookup` | runner/src/main/kotlin/org/jetbrains/idea/inspections/InspectionRunner.kt:186-197 | the selected class names are exactly the configured names some tool answers to, in configuration order, each paired with the first tool of that class |
| `Selection.GetInspectionWrappers` | runner/src/main/kotlin/org/jetbrains/idea/inspections/InspectionRunner.kt:178-198 | inherit mode gives all tools in registry order; explicit mode keeps the known configured names in order and drops the rest; every wrapper's tool has the wrapper's class |
| `Selection.KnownNamesMembership` | runner/src/main/kotlin/org/jetbrains/idea/inspections/InspectionRunner.kt:186-191 | a name survives the explicit lookup iff it is configured and some tool has that class |
| `Selection.KnownNamesAllKnown` | runner/src/main/kotlin/org/jetbrains/idea/inspections/InspectionRunner.kt:186-197 | when every configured name is known, all are selected in configuration order |
| `Selection.LocalOnly` | runner/src/main/kotlin/org/jetbrains/idea/inspections/InspectionRunner.kt:226-236 | keeps exactly the wrappers whose tool is local |
| `Selection.LocalOnlyAppend` | runner/src/main/kotlin/org/jetbrains/idea/inspections/InspectionRunner.kt:223-236 | skipping the non-local wrappers of two lists is skipping those of each in turn, so the local wrappers run in selection order |
| `Runner.AnalyzeTreeLocalOnly` | runner/src/main/kotlin/org/jetbrains/idea/inspections/InspectionRunner.kt:223-236 | running the inspection loop over the selected wrappers is running it over their local tools alone |
| `Runner.Put` | runner/src/main/kotlin/org/jetbrains/idea/inspections/InspectionRunner.kt:252 | storing a result keeps keys unique, maps the class to the new list, leaves other classes alone, keeps an existing key's position and appends a new key |
| `Runner.PinAll` | runner/src/main/kotlin/org/jetbrains/idea/inspections/InspectionRunner.kt:311-313 | succeeds iff every problem can be pinned, and then yields one pinned problem per problem, in order |
| `Runner.AnalyzeFiles` | runner/src/main/kotlin/org/jetbrains/idea/inspections/InspectionRunner.kt:240-251 | the read action succeeds iff every file resolves and all its problems can be pinned, and then yields the pinned problems file after file in tree order, each file's in the order the tool registered them; otherwise it throws what the first file it cannot get through throws: the message for its first missing piece (virtual file, PSI file, document) or what the inspection's visitor throws, or the first pinning exception; an unresolved file always makes it fail |
| `Runner.AnalyzeTree` | runner/src/main/kotlin/org/jetbrains/idea/inspections/InspectionRunner.kt:223-253 | on success the results hold exactly the classes of the local tools, each once; each such class holds the list the read action collected for a local wrapper of that class, and every other entry is left as it was; with a local tool selected, an unresolved file is fatal |
| `Runner.AnalyzeTreeVerdict` | runner/src/main/kotlin/org/jetbrains/idea/inspections/InspectionRunner.kt:223-253 | the loop succeeds iff every local wrapper gets through its read action; otherwise it stops with what the read action of the first local wrapper that fails threw |
| `Runner.KeyListPut` | runner/src/main/kotlin/org/jetbrains/idea/inspections/InspectionRunner.kt:252 | storing into the `mutableMapOf` map keeps its insertion order: a class already present keeps its place, a new one goes last |
| `Runner.AnalyzeTreeKeyOrder` | runner/src/main/kotlin/org/jetbrains/idea/inspections/InspectionRunner.kt:220-253 | the keys of the collected map, in order, are those it started with followed by the local class names in selection order, each at its first occurrence |
| `Runner.Rethrow` | runner/src/main/kotlin/org/jetbrains/idea/inspections/InspectionRunner.kt:163-165 | every escaping `Exception` comes out as a `GradleException`: one that already is passes through unchanged, any other is wrapped with the prefix; an `Error` is not caught and passes through unchanged |
| `Runner.ErrorEscapes` | runner/src/main/kotlin/org/jetbrains/idea/inspections/InspectionRunner.kt:162-165 | when the first failing read action throws an `Error`, `analyzeTreeInIdea` throws that same `Error`, unwrapped |
| `Runner.AnalyzeTreeInIdea` | runner/src/main/kotlin/org/jetbrains/idea/inspections/InspectionRunner.kt:158-169 | failures are `GradleException`s, or an `Error` that the `catch` lets through; on success the results hold exactly the selected local classes, each holding the list the read action collected for a selected local wrapper of that class; with a local tool selected, an unresolved file is fatal |
| `Runner.AnalyzeTreeInIdeaOutcome` | runner/src/main/kotlin/org/jetbrains/idea/inspections/InspectionRunner.kt:158-169 | succeeds iff every selected local wrapper gets through its read action; otherwise it throws the rethrown exception of the first one that fails; the keys are the selected local class names in selection order, each once |
| `Runner.AnalyzeTreeAndLogResults` | runner/src/main/kotlin/org/jetbrains/idea/inspections/InspectionRunner.kt:63-137 | fails exactly when the analysis fails, with the analysis's throwable: a `GradleException` or an escaping `Error` (a failure while building the XML report is not modelled); the XML report exists iff it is enabled; success means the tally completed; on success the outcome is `LogResults` of the collected results, whose meaning `Runner.RunVerdict` states |
| `Runner.RunVerdict` | runner/src/main/kotlin/org/jetbrains/idea/inspections/InspectionRunner.kt:63-169 | the run throws iff some selected local wrapper's read action throws, and then throws the first such exception rethrown; otherwise it succeeds iff no prefix of the collected levelled findings breaches a threshold, and the report reads back as the groups of the findings tallied up to the stop |
| `Runner.LogResultsVerdict` | runner/src/main/kotlin/org/jetbrains/idea/inspections/InspectionRunner.kt:80-136 | the run succeeds iff no prefix of the levelled findings breaches a threshold |
| `Runner.LogResultsReport` | runner/src/main/kotlin/org/jetbrains/idea/inspections/InspectionRunner.kt:93-131 | the report is written whether or not the run succeeds, and it reads back as the errors, warnings and infos, in filing order, among all levelled findings after a successful run, and among those up to and including the first one that breached a threshold after a stop |
| `Runner.NoFilesSucceeds` | runner/src/main/kotlin/org/jetbrains/idea/inspections/InspectionRunner.kt:221-253 | with no files the run succeeds and its report holds three empty groups |
| `Diagnostics.LineNumber` | runner/src/main/kotlin/org/jetbrains/idea/inspections/InspectionRunner.kt:296 | the line found is the one that holds the offset: it starts at or before it and the next line starts after it |
| `Diagnostics.SearchLine` | runner/src/main/kotlin/org/jetbrains/idea/inspections/InspectionRunner.kt:296 | the binary search between two bracketing lines finds the line holding the offset |
| `Diagnostics.Pin` | runner/src/main/kotlin/org/jetbrains/idea/inspections/InspectionRunner.kt:295-299 | pinning succeeds iff the problem has an element whose offset lies in the document; the line holds that offset and the column is the offset minus the line's start; otherwise the host throws |
| `Diagnostics.PinnedColumnInLine` | runner/src/main/kotlin/org/jetbrains/idea/inspections/InspectionRunner.kt:298 | the pinned column stays within its line |
| `Diagnostics.RenderPlain` | runner/src/main/kotlin/org/jetbrains/idea/inspections/InspectionRunner.kt:285-293 | a template containing neither `#ref` nor ` #loc ` is rendered unchanged |
| `Diagnostics.RenderFirstRef` | runner/src/main/kotlin/org/jetbrains/idea/inspections/InspectionRunner.kt:285-290 | the first `#ref` is replaced by the highlighted text, the text before it is kept and the rest is substituted the same way |
| `Diagnostics.RenderFirstLoc` | runner/src/main/kotlin/org/jetbrains/idea/inspections/InspectionRunner.kt:285-293 | in a template without `#ref`, the rendered description keeps the text before the first ` #loc `, puts one space in its place and collapses the rest the same way |
| `Diagnostics.ParseRenderLocation` | runner/src/main/kotlin/org/jetbrains/idea/inspections/InspectionRunner.kt:275-281 | the location `file:line:column` reads back as the file name and the 1-based line and column, whatever the file name holds |
| `Text.ReplaceAbsent` | runner/src/main/kotlin/org/jetbrains/idea/inspections/InspectionRunner.kt:285-293 | replacing a pattern that does not occur leaves the text unchanged |
| `Text.ReplaceFirst` | runner/src/main/kotlin/org/jetbrains/idea/inspections/InspectionRunner.kt:285-293 | the replacement keeps the text before the first occurrence, substitutes it, and continues after it |
| `HtmlContext.FindElementToPrint` | runner/src/main/kotlin/org/jetbrains/idea/inspections/generators/HTMLGenerator.kt:52-61 | returns an ancestor-or-self of the problem element; each element stepped from had a parent other than the file and did not cover; it stops at a covering element or just below the file; without a document it returns the element itself |
| `HtmlContext.WalkUp` | runner/src/main/kotlin/org/jetbrains/idea/inspections/generators/HTMLGenerator.kt:54-59 | the loop of the ancestor walk keeps the same guarantees from any starting height |
| `HtmlContext.FindElementToPrintUnique` | runner/src/main/kotlin/org/jetbrains/idea/inspections/generators/HTMLGenerator.kt:43-61 | that description determines the printed element: any ancestor meeting it is the one found |
| `HtmlContext.VisitMeaning` | runner/src/main/kotlin/org/jetbrains/idea/inspections/generators/HTMLGenerator.kt:70-95 | the walk prints exactly the leaves inside the problem element or within two lines of the problem line, in depth-first order; the leading flag is raised iff some leaf before the window is left out, the trailing one iff some leaf after it is |
| `HtmlContext.VisitProblemTag` | runner/src/main/kotlin/org/jetbrains/idea/inspections/generators/HTMLGenerator.kt:73-77 | the output holds one problem tag when the problem element lies below the visited element, none otherwise |
| `HtmlContext.LeafHtml` | runner/src/main/kotlin/org/jetbrains/idea/inspections/generators/HTMLGenerator.kt:81-88 | a printed leaf is its text inside the keyword tag exactly when it is a `PsiKeyword` or a leaf element whose text is a Kotlin keyword, and its bare text otherwise |
| `HtmlContext.VisitPlain` | runner/src/main/kotlin/org/jetbrains/idea/inspections/generators/HTMLGenerator.kt:70-95 | a walk over an element without the problem element below it prints its emitted leaves flat, in depth-first order |
| `HtmlContext.VisitProblemElement` | runner/src/main/kotlin/org/jetbrains/idea/inspections/generators/HTMLGenerator.kt:74-77 | the problem element's visit is one problem tag holding every one of its leaves printed, in order |
| `HtmlContext.VisitShape` | runner/src/main/kotlin/org/jetbrains/idea/inspections/generators/HTMLGenerator.kt:70-95 | with the problem element below, the walk prints its emitted leaves flat in depth-first order, except that the problem element's leaves, a contiguous stretch of them, sit together in one problem tag at their place |
| `HtmlContext.ProblemTagBody` | runner/src/main/kotlin/org/jetbrains/idea/inspections/generators/HTMLGenerator.kt:75-88 | inside the problem tag every leaf of the problem element is printed, in order, each as its keyword-tagged or bare text, so the tag's texts are exactly the leaves' texts |
| `HtmlContext.WalkShape` | runner/src/main/kotlin/org/jetbrains/idea/inspections/generators/HTMLGenerator.kt:67-98 | the walk from the printed element's root raises each ellipsis flag iff a leaf on that side is left out, and prints its snapshot in that problem-tag shape |
| `HtmlContext.PrintSmartlyShape` | runner/src/main/kotlin/org/jetbrains/idea/inspections/generators/HTMLGenerator.kt:63-108 | the `pre` block is the optional leading ellipsis, the chosen element's leaves printed flat except for the problem element's leaves inside the one problem tag, and the optional trailing ellipsis |
| `HtmlContext.PrintSmartlyMeaning` | runner/src/main/kotlin/org/jetbrains/idea/inspections/generators/HTMLGenerator.kt:63-108 | the `pre` block is an optional leading ellipsis, the snapshot of emitted leaf texts with exactly one problem tag, and an optional trailing ellipsis, each ellipsis present iff a leaf on its side was left out |
| `HtmlReport.ProblemTag` | runner/src/main/kotlin/org/jetbrains/idea/inspections/generators/HTMLGenerator.kt:124-131 | `unused` iff the highlight type is LIKE_UNUSED_SYMBOL, otherwise `error`, `warning` or `info` by level, with weak warnings and information both `info`; never the keyword tag |
| `HtmlReport.AddReport` | runner/src/main/kotlin/org/jetbrains/idea/inspections/generators/HTMLGenerator.kt:147-150 | a report is queued behind all earlier ones, which stay as they were |
| `HtmlReport.ReportOrder` | runner/src/main/kotlin/org/jetbrains/idea/inspections/generators/HTMLGenerator.kt:110-112 | the body after a new report is the earlier body followed by the new report's block |
| `HtmlReport.ReportBlockMeaning` | runner/src/main/kotlin/org/jetbrains/idea/inspections/generators/HTMLGenerator.kt:112-143 | a block is the location paragraph (whose location reads back as file, 1-based line and column), the code block only when there is an element, then the message caption; the problem tag occurs once iff there is a code block |
| `HtmlReport.PrintSmartlyOneTag` | runner/src/main/kotlin/org/jetbrains/idea/inspections/generators/HTMLGenerator.kt:133-135 | the printed code block holds the problem tag exactly once; what that tag wraps is stated by `HtmlContext.PrintSmartlyShape` |

## Left out

- The IDEA application lifecycle is not modelled (system properties, `createCommandLineApplication`, plugin disabling, `load`, `doNotSave`, `exit`, "Cannot create IDEA application"). It is global process state of the host. Only the `catch` that rewraps exceptions is modelled (`Runner.Rethrow`).
- Opening the IDEA project and creating the PSI, VFS and document managers is not modelled. Neither is `runReadAction`. Files are values that resolve or name the first missing piece.
- Visitor plumbing is not modelled (`acceptRecursively`, `ProblemsHolder`, `LocalInspectionToolSession`, `buildVisitor`). The problems a tool registers for a file, or the exception its visitor throws, are given by `Runner.Analyzer`.
- Logging is not modelled. This covers the progress messages and the echo of each violation when `showViolations` is set (`renderWithLocation`). It also covers the messages for too many errors or warnings, for unknown classes and for unsupported tools. The breach kind is kept as the `Tally.Stop` value.
- XML and HTML serialisation and the report file writes are not modelled. This covers JDOM's `XMLOutputter` and the HTML builder's `line`, `raw`, `snapshot` and `merge`, whose effect is taken as plain concatenation. The CSS text of `generateHead` is left out as well, so the style tag is empty.
- `getLine`, `isKotlinKeyword`, `ProblemLevel`, `InspectionClassesSuite.getLevel` and `ProblemDescriptorUtil.extractHighlightedText` are not defined in the core files. They are parameters or fields of the model: an element's line, a keyword predicate, a four-valued level, a map lookup, and an element's highlighted text.
- Kotlin's 32-bit `Int` is not modelled. Counters, lines and columns are unbounded, because wrap-around needs more than two billion problems or lines.
- A problem element that is the `PsiFile` itself is not modelled beyond the file root. The host would walk on to the file's directory, and the file root has no parent here.
- The document the HTML report looks up is reduced to whether it exists. The lines it would give come from the given `getLine`.
- `Kotlin Sequence` laziness in `getInspectionWrappers` is not modelled. It only changes when the "not found" messages are logged.
- Runner.Rethrow: the source appends the exception's `toString` to the prefix; the model appends the host exception's message, which stands for that text.
- Runner.AnalyzeTree: for a class listed twice, states that its entry holds the list collected for one of its local wrappers, not that it is the last one run, which is the one the source keeps.
- Runner.AnalyzeTreeInIdea: the same for a class selected twice.
- Runner.AnalyzeTreeAndLogResults: JDOM's `Element.addContent(String)` throws `IllegalDataException` on characters that XML does not allow. That happens outside the `catch` of `analyzeTreeInIdea`. The model's report takes any string, so a run the source aborts while building the report succeeds here.
- `runner/build.gradle.kts` and `plugin/src/main/kotlin/org/jetbrains/intellij/utils/Downloader.kt` are not modelled. They are build wiring and download I/O.

=== FILE: diagnostics.dfy ===
/** Problems as the inspections report them and as the runner pins them to a
    file position (`PinnedProblemDescriptor`), with their two renderings: the
    message (`render`) and the location (`renderLocation`). */
module Diagnostics {
  import opened Wrappers
  import opened Text
  import Psi

  /** The host's `ProblemHighlightType`. */
  datatype HighlightType =
    | GenericErrorOrWarning
    | LikeUnknownSymbol
    | LikeDeprecated
    | LikeUnusedSymbol
    | Error
    | WeakWarning
    | GenericError
    | Info
    | Information
    | LikeMarkedForRemoval

  /** Gradle's `LogLevel`. */
  datatype LogLevel = Debug | Info | Lifecycle | Warn | Quiet | Error

  /** A throwable escaping the analysis: a `GradleException` with its message,
      any other `Exception` raised by the host, or a `java.lang.Error` (a stack
      overflow in a deep visit, an assertion raised through the logger). */
  datatype Failure = GradleException(message: string) | HostException(message: string) | HostError(message: string)

  /** A document as the host exposes it: the start offset of every line and the
      text length. */
  datatype DocumentData = DocumentData(lineStarts: seq<nat>, textLength: nat)
  {
    /** The first line starts at offset 0, lines start in strictly increasing
        order, and no line starts past the end of the text. */
    predicate Valid() {
      && |lineStarts| > 0
      && lineStarts[0] == 0
      && (forall i, j :: 0 <= i < j < |lineStarts| ==> lineStarts[i] < lineStarts[j])
      && lineStarts[|lineStarts| - 1] <= textLength
    }
  }

  type Document = d: DocumentData | d.Valid() witness DocumentData([0], 0)

  /** `line` is the (0-based) line holding `offset`: it starts at or before the
      offset, and the next line, if any, starts after it. */
  predicate IsLineOf(d: Document, offset: nat, line: nat)
  {
    && line < |d.lineStarts|
    && d.lineStarts[line] <= offset
    && (line + 1 < |d.lineStarts| ==> offset < d.lineStarts[line + 1])
  }

  /** An offset lies on one line only. */
  lemma LineOfUnique(d: Document, offset: nat, a: nat, b: nat)
    requires IsLineOf(d, offset, a) && IsLineOf(d, offset, b)
    ensures a == b
  {
  }

  /** The host's `Document.getLineNumber`: a binary search of the line table. */
  function LineNumber(d: Document, offset: nat): (line: nat)
    requires offset <= d.textLength
    ensures IsLineOf(d, offset, line)
  {
    SearchLine(d, offset, 0, |d.lineStarts|)
  }

  function SearchLine(d: Document, offset: nat, lo: nat, hi: nat): (line: nat)
    requires lo < hi <= |d.lineStarts|
    requires d.lineStarts[lo] <= offset
    requires hi < |d.lineStarts| ==> offset < d.lineStarts[hi]
    ensures lo <= line < hi
    ensures IsLineOf(d, offset, line)
    decreases hi - lo
  {
    if hi - lo == 1 then lo
    else
      var mid := (lo + hi) / 2;
      if d.lineStarts[mid] <= offset then SearchLine(d, offset, mid, hi)
      else SearchLine(d, offset, lo, mid)
  }

  /** The element a problem is reported on, as far as the runner and the HTML
      report use it: its file's name, its start offset, the text the problem
      highlights, and its position in the file's syntax tree together with
      whether the host can find a document for that file. */
  datatype AnchorData = AnchorData(
    fileName: string,
    startOffset: nat,
    highlightedText: string,
    file: Psi.Element,
    path: seq<nat>,
    hasDocument: bool)

  type Anchor = a: AnchorData | Psi.ValidPath(a.file, a.path)
    witness AnchorData("", 0, "", Psi.Element(Psi.LeafElement, 0, "", []), [], false)

  /** A `ProblemDescriptor` produced by an inspection: its message template, its
      highlight type and its PSI element, which may be missing. */
  datatype Problem = Problem(template: string, highlightType: HighlightType, element: Option<Anchor>)

  /** A `PinnedProblemDescriptor`: the problem with the file name, the 0-based
      line and column, and the display name of the inspection that found it. */
  datatype Pinned = Pinned(problem: Problem, fileName: string, line: nat, row: nat, displayName: string)

  /** The secondary constructor of `PinnedProblemDescriptor`: the line is the
      document line of the element's start offset and the column its distance
      from that line's start. A missing element or an offset past the end of the
      document makes the host throw. */
  function Pin(p: Problem, d: Document, displayName: string): (r: Result<Pinned, Failure>)
    ensures r.Success? <==> p.element.Some? && p.element.value.startOffset <= d.textLength
    ensures r.Failure? ==> r.error.HostException?
    ensures r.Success? ==>
      var a := p.element.value;
      && r.value.problem == p
      && r.value.fileName == a.fileName
      && r.value.displayName == displayName
      && IsLineOf(d, a.startOffset, r.value.line)
      && r.value.row == a.startOffset - d.lineStarts[r.value.line]
  {
    match p.element
    case None => Failure(HostException("NullPointerException"))
    case Some(a) =>
      if a.startOffset > d.textLength then Failure(HostException("IndexOutOfBoundsException"))
      else
        var line := LineNumber(d, a.startOffset);
        Success(Pinned(p, a.fileName, line, a.startOffset - d.lineStarts[line], displayName))
  }

  /** A pinned column never reaches the start of the next line. */
  lemma PinnedColumnInLine(p: Problem, d: Document, displayName: string)
    requires Pin(p, d, displayName).Success?
    ensures var q := Pin(p, d, displayName).value;
      q.line + 1 < |d.lineStarts| ==> q.row < d.lineStarts[q.line + 1] - d.lineStarts[q.line]
  {
  }

  /** The highlighted text, or the empty string when there is no element. */
  function HighlightedText(p: Pinned): string
  {
    match p.problem.element
    case Some(a) => a.highlightedText
    case None => ""
  }

  const RefToken: string := "#ref"
  const LocToken: string := " #loc "

  /** `render()`: substitutes the highlighted text for `#ref`, then collapses
      ` #loc ` to a single space. */
  function Render(p: Pinned): string
  {
    Replace(Replace(p.problem.template, RefToken, HighlightedText(p)), LocToken, " ")
  }

  /** A template holding neither token is rendered as it is. */
  lemma RenderPlain(p: Pinned)
    requires !Contains(p.problem.template, RefToken)
    requires !Contains(p.problem.template, LocToken)
    ensures Render(p) == p.problem.template
  {
    ReplaceAbsent(p.problem.template, RefToken, HighlightedText(p));
    ReplaceAbsent(p.problem.template, LocToken, " ");
  }

  /** The `#ref` pass of `render()`: the first `#ref` is replaced by the
      highlighted text, the text in front of it is kept, and the rest of the
      template is substituted the same way; `render()` then collapses the
      ` #loc `s of that string. */
  lemma RenderFirstRef(p: Pinned, k: nat)
    requires OccursAt(p.problem.template, RefToken, k)
    requires forall j: nat :: j < k ==> !OccursAt(p.problem.template, RefToken, j)
    ensures Replace(p.problem.template, RefToken, HighlightedText(p))
            == p.problem.template[..k] + HighlightedText(p)
               + Replace(p.problem.template[k + |RefToken|..], RefToken, HighlightedText(p))
    ensures Render(p) == Replace(p.problem.template[..k] + HighlightedText(p)
                                 + Replace(p.problem.template[k + |RefToken|..], RefToken, HighlightedText(p)), LocToken, " ")
  {
    ReplaceFirst(p.problem.template, RefToken, HighlightedText(p), k);
  }

  /** In a template without `#ref`, the text in front of the first ` #loc ` is
      kept, that ` #loc ` becomes one space, and the rest is collapsed the same way. */
  lemma RenderFirstLoc(p: Pinned, k: nat)
    requires !Contains(p.problem.template, RefToken)
    requires OccursAt(p.problem.template, LocToken, k)
    requires forall j: nat :: j < k ==> !OccursAt(p.problem.template, LocToken, j)
    ensures Render(p) == p.problem.template[..k] + " " + Replace(p.problem.template[k + |LocToken|..], LocToken, " ")
  {
    ReplaceAbsent(p.problem.template, RefToken, HighlightedText(p));
    ReplaceFirst(p.problem.template, LocToken, " ", k);
  }

  /** `renderLocation()`: `file:line:column`, line and column 1-based. */
  function RenderLocation(p: Pinned): string
  {
    p.fileName + ":" + NatToString(p.line + 1) + ":" + NatToString(p.row + 1)
  }

  /** Reads a `file:line:column` location back, splitting at the last two colons. */
  function ParseLocation(s: string): Option<(string, nat, nat)>
  {
    match SplitLast(s, ':')
    case None => None
    case Some((rest, rowText)) =>
      match SplitLast(rest, ':')
      case None => None
      case Some((file, lineText)) =>
        match (ParseNat(lineText), ParseNat(rowText))
        case (Some(line), Some(row)) => Some((file, line, row))
        case _ => None
  }

  lemma DigitsHaveNoColon(s: string)
    requires AllDigits(s)
    ensures forall j :: 0 <= j < |s| ==> s[j] != ':'
  {
  }

  /** The rendered location gives back the file name and the 1-based line and
      column, whatever the file name contains. */
  lemma {:induction false} ParseRenderLocation(p: Pinned)
    ensures ParseLocation(RenderLocation(p)) == Some((p.fileName, p.line + 1, p.row + 1))
  {
    var lineText := NatToString(p.line + 1);
    var rowText := NatToString(p.row + 1);
    var rest := p.fileName + ":" + lineText;
    DigitsHaveNoColon(lineText);
    DigitsHaveNoColon(rowText);
    assert RenderLocation(p) == rest + [':'] + rowText;
    SplitLastAppend(rest, ':', rowText);
    assert rest == p.fileName + [':'] + lineText;
    SplitLastAppend(p.fileName, ':', lineText);
    ParseNatToString(p.line + 1);
    ParseNatToString(p.row + 1);
  }
}

=== FILE: html_context.dfy ===
/** The code block of the HTML report: the element chosen to print around a
    problem (`findElementToPrint`) and its depth-first rendering with a window of
    two lines around the problem line (`printSmartly`). */
module HtmlContext {
  import opened Psi
  import opened Seqs

  /** The HTML the report builds, as a tree of tags and text. */
  datatype Html = Text(text: string) | Tag(name: string, body: seq<Html>)

  const Ellipsis: string := "..."
  const KeywordTag: string := "keyword"

  // ---------------------------------------------------------------------------
  // findElementToPrint

  /** `coversElement`: without a document every element covers; otherwise an
      element covers when it starts on a line before the problem's. */
  predicate Covers(file: Element, at: seq<nat>, problem: seq<nat>, hasDocument: bool)
    requires ValidPath(file, problem) && IsPrefix(at, problem)
  {
    ValidPathSplit(file, problem, |at|);
    !hasDocument || At(file, at).line < At(file, problem).line
  }

  /** `findElementToPrint`: walk up from the problem element while the current
      element has a parent that is not the file (the file root has neither a
      parent in this model nor a parent that is a file's parent) and does not cover. */
  function FindElementToPrint(file: Element, problem: seq<nat>, hasDocument: bool): (at: seq<nat>)
    requires ValidPath(file, problem)
    ensures IsPrefix(at, problem) && ValidPath(file, at)
    ensures forall n :: |at| < n <= |problem| ==> n >= 2 && !Covers(file, problem[..n], problem, hasDocument)
    ensures |at| <= 1 || Covers(file, at, problem, hasDocument)
    ensures !hasDocument ==> at == problem
  {
    assert problem[..|problem|] == problem;
    var at := WalkUp(file, problem, |problem|, hasDocument);
    ValidPathSplit(file, problem, |at|);
    at
  }

  function WalkUp(file: Element, problem: seq<nat>, n: nat, hasDocument: bool): (at: seq<nat>)
    requires ValidPath(file, problem) && n <= |problem|
    ensures IsPrefix(at, problem) && |at| <= n
    ensures forall m :: |at| < m <= n ==> m >= 2 && !Covers(file, problem[..m], problem, hasDocument)
    ensures |at| <= 1 || Covers(file, at, problem, hasDocument)
    ensures !hasDocument ==> at == problem[..n]
    decreases n
  {
    if n >= 2 && !Covers(file, problem[..n], problem, hasDocument) then WalkUp(file, problem, n - 1, hasDocument)
    else problem[..n]
  }

  /** The element chosen is the closest ancestor-or-self that covers the
      problem or sits directly below the file: any other choice either skips a
      covering element or stops at one that does not cover. */
  lemma FindElementToPrintUnique(file: Element, problem: seq<nat>, hasDocument: bool, other: seq<nat>)
    requires ValidPath(file, problem)
    requires IsPrefix(other, problem)
    requires |other| <= 1 || Covers(file, other, problem, hasDocument)
    requires forall n :: |other| < n <= |problem| ==> n >= 2 && !Covers(file, problem[..n], problem, hasDocument)
    ensures other == FindElementToPrint(file, problem, hasDocument)
  {
  }

  // ---------------------------------------------------------------------------
  // printSmartly

  /** What the walk needs to know about the problem: its path below the printed
      element, its line, the problem tag, and the host's Kotlin keyword check. */
  datatype Window = Window(problem: seq<nat>, line: int, tag: string, isKotlinKeyword: string -> bool)

  /** The walk's result: the snapshot's content and the two ellipsis flags. */
  datatype Walk = Walk(out: seq<Html>, before: bool, after: bool)

  predicate InWindow(line: int, w: Window)
  {
    w.line - 2 <= line <= w.line + 2
  }

  /** A leaf is a keyword when it is a `PsiKeyword`, or another leaf element
      whose text is a Kotlin keyword. */
  predicate IsKeyword(e: Element, w: Window)
  {
    match e.kind
    case KeywordElement => true
    case LeafElement => w.isKotlinKeyword(e.text)
    case OtherElement => false
  }

  /** How a printed leaf appears: its text, inside the keyword tag exactly
      when the leaf is a keyword. */
  function LeafHtml(e: Element, w: Window): (h: Html)
    ensures h == Tag(KeywordTag, [Text(e.text)]) <==> IsKeyword(e, w)
    ensures !IsKeyword(e, w) ==> h == Text(e.text)
  {
    if IsKeyword(e, w) then Tag(KeywordTag, [Text(e.text)]) else Text(e.text)
  }

  /** The visit of a leaf: printed when inside the problem element or within
      the window; otherwise it only raises one of the two ellipsis flags. */
  function VisitLeaf(e: Element, inside: bool, w: Window): Walk
  {
    if inside || InWindow(e.line, w) then Walk([LeafHtml(e, w)], false, false)
    else if e.line < w.line - 2 then Walk([], true, false)
    else Walk([], false, true)
  }

  /** `visitElement` on the element at `pos`: the problem element (the one at
      the problem's path) is wrapped in the problem tag, and everything inside
      it is visited with the inside flag set. */
  function Visit(e: Element, pos: seq<nat>, inside: bool, w: Window): Walk
    decreases e, |e.children| + 1
  {
    var isProblem := pos == w.problem;
    var ins := inside || isProblem;
    var body := if e.IsLeaf() then VisitLeaf(e, ins, w) else VisitChildren(e, 0, pos, ins, w);
    if isProblem then Walk([Tag(w.tag, body.out)], body.before, body.after) else body
  }

  /** The children of `e` from index `i` on, in order. */
  function VisitChildren(e: Element, i: nat, pos: seq<nat>, inside: bool, w: Window): Walk
    requires i <= |e.children|
    decreases e, |e.children| - i
  {
    if i == |e.children| then Walk([], false, false)
    else
      var a := Visit(e.children[i], pos + [i], inside, w);
      var b := VisitChildren(e, i + 1, pos, inside, w);
      Walk(a.out + b.out, a.before || b.before, a.after || b.after)
  }

  /** `printSmartly`: the chosen element is walked, and the snapshot is put
      between an optional leading and an optional trailing ellipsis inside `pre`. */
  function PrintSmartly(file: Element, problem: seq<nat>, hasDocument: bool, tag: string, isKotlinKeyword: string -> bool): Html
    requires ValidPath(file, problem)
  {
    var at := FindElementToPrint(file, problem, hasDocument);
    var walk := Visit(At(file, at), [], false, PrintWindow(file, problem, hasDocument, tag, isKotlinKeyword));
    Tag("pre", Marker(walk.before) + walk.out + Marker(walk.after))
  }

  function Marker(present: bool): seq<Html>
  {
    if present then [Text(Ellipsis)] else []
  }

  // ---------------------------------------------------------------------------
  // An independent description: the leaves of the printed element in
  // depth-first order, each with its path.

  datatype Hit = Hit(leaf: Element, path: seq<nat>)

  /** The leaves below `e` (at `pos`), left to right. */
  function Leaves(e: Element, pos: seq<nat>): seq<Hit>
    decreases e, |e.children| + 1
  {
    if e.IsLeaf() then [Hit(e, pos)] else LeavesFrom(e, 0, pos)
  }

  function LeavesFrom(e: Element, i: nat, pos: seq<nat>): seq<Hit>
    requires i <= |e.children|
    decreases e, |e.children| - i
  {
    if i == |e.children| then [] else Leaves(e.children[i], pos + [i]) + LeavesFrom(e, i + 1, pos)
  }

  /** A leaf is printed when it lies inside the problem element or its line is
      within two of the problem line. */
  predicate Emitted(h: Hit, w: Window)
  {
    IsPrefix(w.problem, h.path) || InWindow(h.leaf.line, w)
  }

  /** The texts of the printed leaves, in order. */
  function EmittedTexts(hs: seq<Hit>, w: Window): seq<string>
  {
    if |hs| == 0 then []
    else (if Emitted(hs[0], w) then [hs[0].leaf.text] else []) + EmittedTexts(hs[1..], w)
  }

  /** Some leaf is left out for lying before the window. */
  predicate ElidedBefore(hs: seq<Hit>, w: Window)
  {
    exists j :: 0 <= j < |hs| && !Emitted(hs[j], w) && hs[j].leaf.line < w.line - 2
  }

  /** Some leaf is left out for lying after the window. */
  predicate ElidedAfter(hs: seq<Hit>, w: Window)
  {
    exists j :: 0 <= j < |hs| && !Emitted(hs[j], w) && hs[j].leaf.line > w.line + 2
  }

  /** The text nodes of an HTML sequence, in document order, tags dropped. */
  function Texts(hs: seq<Html>): seq<string>
    decreases hs
  {
    if |hs| == 0 then [] else TextsOf(hs[0]) + Texts(hs[1..])
  }

  function TextsOf(h: Html): seq<string>
    decreases h
  {
    match h
    case Text(s) => [s]
    case Tag(_, body) => Texts(body)
  }

  lemma {:induction false} TextsAppend(a: seq<Html>, b: seq<Html>)
    ensures Texts(a + b) == Texts(a) + Texts(b)
  {
    if |a| > 0 {
      assert (a + b)[0] == a[0];
      assert (a + b)[1..] == a[1..] + b;
      TextsAppend(a[1..], b);
    } else {
      assert a + b == b;
    }
  }

  lemma {:induction false} EmittedTextsAppend(a: seq<Hit>, b: seq<Hit>, w: Window)
    ensures EmittedTexts(a + b, w) == EmittedTexts(a, w) + EmittedTexts(b, w)
  {
    if |a| > 0 {
      assert (a + b)[0] == a[0];
      assert (a + b)[1..] == a[1..] + b;
      EmittedTextsAppend(a[1..], b, w);
    } else {
      assert a + b == b;
    }
  }

  lemma ElidedAppend(a: seq<Hit>, b: seq<Hit>, w: Window)
    ensures ElidedBefore(a + b, w) <==> ElidedBefore(a, w) || ElidedBefore(b, w)
    ensures ElidedAfter(a + b, w) <==> ElidedAfter(a, w) || ElidedAfter(b, w)
  {
    var ab := a + b;
    assert forall j :: 0 <= j < |a| ==> ab[j] == a[j];
    assert forall j :: 0 <= j < |b| ==> ab[|a| + j] == b[j];
    if ElidedBefore(ab, w) {
      var j :| 0 <= j < |ab| && !Emitted(ab[j], w) && ab[j].leaf.line < w.line - 2;
      if j >= |a| { assert b[j - |a|] == ab[j]; } else { assert a[j] == ab[j]; }
    }
    if ElidedAfter(ab, w) {
      var j :| 0 <= j < |ab| && !Emitted(ab[j], w) && ab[j].leaf.line > w.line + 2;
      if j >= |a| { assert b[j - |a|] == ab[j]; } else { assert a[j] == ab[j]; }
    }
    if ElidedBefore(a, w) {
      var j :| 0 <= j < |a| && !Emitted(a[j], w) && a[j].leaf.line < w.line - 2;
      assert ab[j] == a[j];
    }
    if ElidedAfter(a, w) {
      var j :| 0 <= j < |a| && !Emitted(a[j], w) && a[j].leaf.line > w.line + 2;
      assert ab[j] == a[j];
    }
    if ElidedBefore(b, w) {
      var j :| 0 <= j < |b| && !Emitted(b[j], w) && b[j].leaf.line < w.line - 2;
      assert ab[|a| + j] == b[j];
    }
    if ElidedAfter(b, w) {
      var j :| 0 <= j < |b| && !Emitted(b[j], w) && b[j].leaf.line > w.line + 2;
      assert ab[|a| + j] == b[j];
    }
  }

  lemma TextsSingle(h: Html)
    ensures Texts([h]) == TextsOf(h)
  {
    assert [h][1..] == [];
  }

  lemma LeafHtmlTexts(e: Element, w: Window)
    ensures Texts([LeafHtml(e, w)]) == [e.text]
  {
    TextsSingle(LeafHtml(e, w));
    TextsSingle(Text(e.text));
  }

  /** The inside flag of the visit of `pos` says exactly that the problem
      element is a proper ancestor of `pos`. */
  predicate FlagMatches(pos: seq<nat>, inside: bool, w: Window)
  {
    inside <==> (|w.problem| < |pos| && IsPrefix(w.problem, pos))
  }

  lemma FlagStep(pos: seq<nat>, inside: bool, w: Window, i: nat)
    requires FlagMatches(pos, inside, w)
    ensures FlagMatches(pos + [i], inside || pos == w.problem, w)
    ensures (inside || pos == w.problem) <==> IsPrefix(w.problem, pos)
  {
    if IsPrefix(w.problem, pos + [i]) && |w.problem| < |pos + [i]| {
      assert (pos + [i])[..|w.problem|] == pos[..|w.problem|];
    }
    if IsPrefix(w.problem, pos) {
      assert (pos + [i])[..|w.problem|] == pos[..|w.problem|];
    }
  }

  /** The visit prints exactly the texts of the emitted leaves, in depth-first
      order, and raises each ellipsis flag exactly when some leaf on that side
      of the window is left out. */
  lemma {:induction false} VisitMeaning(e: Element, pos: seq<nat>, inside: bool, w: Window)
    requires FlagMatches(pos, inside, w)
    ensures Texts(Visit(e, pos, inside, w).out) == EmittedTexts(Leaves(e, pos), w)
    ensures Visit(e, pos, inside, w).before == ElidedBefore(Leaves(e, pos), w)
    ensures Visit(e, pos, inside, w).after == ElidedAfter(Leaves(e, pos), w)
    decreases e, |e.children| + 1
  {
    var ins := inside || pos == w.problem;
    FlagStep(pos, inside, w, 0);
    if e.IsLeaf() {
      var hit := Hit(e, pos);
      assert Leaves(e, pos) == [hit];
      assert Emitted(hit, w) <==> ins || InWindow(e.line, w);
      LeafHtmlTexts(e, w);
    } else {
      VisitChildrenMeaning(e, 0, pos, ins, w);
    }
    var body := if e.IsLeaf() then VisitLeaf(e, ins, w) else VisitChildren(e, 0, pos, ins, w);
    TextsSingle(Tag(w.tag, body.out));
  }

  lemma {:induction false} VisitChildrenMeaning(e: Element, i: nat, pos: seq<nat>, inside: bool, w: Window)
    requires i <= |e.children|
    requires inside <==> IsPrefix(w.problem, pos)
    ensures Texts(VisitChildren(e, i, pos, inside, w).out) == EmittedTexts(LeavesFrom(e, i, pos), w)
    ensures VisitChildren(e, i, pos, inside, w).before == ElidedBefore(LeavesFrom(e, i, pos), w)
    ensures VisitChildren(e, i, pos, inside, w).after == ElidedAfter(LeavesFrom(e, i, pos), w)
    decreases e, |e.children| - i
  {
    if i < |e.children| {
      assert FlagMatches(pos + [i], inside, w) by {
        if IsPrefix(w.problem, pos + [i]) && |w.problem| < |pos + [i]| {
          assert (pos + [i])[..|w.problem|] == pos[..|w.problem|];
        }
        if IsPrefix(w.problem, pos) {
          assert (pos + [i])[..|w.problem|] == pos[..|w.problem|];
        }
      }
      VisitMeaning(e.children[i], pos + [i], inside, w);
      VisitChildrenMeaning(e, i + 1, pos, inside, w);
      var a := Visit(e.children[i], pos + [i], inside, w);
      var b := VisitChildren(e, i + 1, pos, inside, w);
      TextsAppend(a.out, b.out);
      EmittedTextsAppend(Leaves(e.children[i], pos + [i]), LeavesFrom(e, i + 1, pos), w);
      ElidedAppend(Leaves(e.children[i], pos + [i]), LeavesFrom(e, i + 1, pos), w);
    }
  }

  /** How many `name` tags occur anywhere in `hs`. */
  function CountTags(hs: seq<Html>, name: string): nat
    decreases hs
  {
    if |hs| == 0 then 0 else CountTagsIn(hs[0], name) + CountTags(hs[1..], name)
  }

  function CountTagsIn(h: Html, name: string): nat
    decreases h
  {
    match h
    case Text(_) => 0
    case Tag(n, body) => (if n == name then 1 else 0) + CountTags(body, name)
  }

  lemma {:induction false} CountTagsAppend(a: seq<Html>, b: seq<Html>, name: string)
    ensures CountTags(a + b, name) == CountTags(a, name) + CountTags(b, name)
  {
    if |a| > 0 {
      assert (a + b)[0] == a[0];
      assert (a + b)[1..] == a[1..] + b;
      CountTagsAppend(a[1..], b, name);
    } else {
      assert a + b == b;
    }
  }

  lemma CountTagsSingle(h: Html, name: string)
    ensures CountTags([h], name) == CountTagsIn(h, name)
  {
    assert [h][1..] == [];
  }

  /** `pos` leads, within `e`, to the problem element. */
  predicate ProblemBelow(e: Element, pos: seq<nat>, w: Window)
  {
    IsPrefix(pos, w.problem) && ValidPath(e, w.problem[|pos|..])
  }

  /** The problem element is visited once: the output holds exactly one
      problem tag when the problem element lies below the visited element, and
      none otherwise. */
  lemma {:induction false} VisitProblemTag(e: Element, pos: seq<nat>, inside: bool, w: Window)
    requires w.tag != KeywordTag
    requires FlagMatches(pos, inside, w)
    ensures CountTags(Visit(e, pos, inside, w).out, w.tag) == if ProblemBelow(e, pos, w) then 1 else 0
    decreases e, |e.children| + 1
  {
    var ins := inside || pos == w.problem;
    FlagStep(pos, inside, w, 0);
    var body := if e.IsLeaf() then VisitLeaf(e, ins, w) else VisitChildren(e, 0, pos, ins, w);
    if e.IsLeaf() {
      var h := LeafHtml(e, w);
      CountTagsSingle(h, w.tag);
      CountTagsSingle(Text(e.text), w.tag);
      assert CountTags(body.out, w.tag) == 0;
    } else {
      VisitChildrenProblemTag(e, 0, pos, ins, w);
    }
    CountTagsSingle(Tag(w.tag, body.out), w.tag);
    if IsPrefix(pos, w.problem) && |w.problem| > |pos| {
      assert w.problem[|pos|..][1..] == w.problem[|pos| + 1..];
      assert w.problem[|pos|..][0] == w.problem[|pos|];
    }
    if IsPrefix(pos, w.problem) && |w.problem| == |pos| {
      assert w.problem[|pos|..] == [];
      assert pos == w.problem;
    }
  }

  lemma {:induction false} VisitChildrenProblemTag(e: Element, i: nat, pos: seq<nat>, inside: bool, w: Window)
    requires w.tag != KeywordTag
    requires i <= |e.children|
    requires inside <==> IsPrefix(w.problem, pos)
    ensures CountTags(VisitChildren(e, i, pos, inside, w).out, w.tag)
            == if IsPrefix(pos, w.problem) && |w.problem| > |pos| && i <= w.problem[|pos|] < |e.children|
                  && ValidPath(e.children[w.problem[|pos|]], w.problem[|pos| + 1..]) then 1 else 0
    decreases e, |e.children| - i
  {
    if i < |e.children| {
      assert FlagMatches(pos + [i], inside, w) by {
        if IsPrefix(w.problem, pos + [i]) && |w.problem| < |pos + [i]| {
          assert (pos + [i])[..|w.problem|] == pos[..|w.problem|];
        }
        if IsPrefix(w.problem, pos) {
          assert (pos + [i])[..|w.problem|] == pos[..|w.problem|];
        }
      }
      VisitProblemTag(e.children[i], pos + [i], inside, w);
      VisitChildrenProblemTag(e, i + 1, pos, inside, w);
      var a := Visit(e.children[i], pos + [i], inside, w);
      var b := VisitChildren(e, i + 1, pos, inside, w);
      CountTagsAppend(a.out, b.out, w.tag);
      assert IsPrefix(pos + [i], w.problem) <==> IsPrefix(pos, w.problem) && |w.problem| > |pos| && w.problem[|pos|] == i by {
        if IsPrefix(pos, w.problem) && |w.problem| > |pos| && w.problem[|pos|] == i {
          assert w.problem[..|pos| + 1] == w.problem[..|pos|] + [w.problem[|pos|]];
        }
        if IsPrefix(pos + [i], w.problem) {
          assert w.problem[..|pos|] == w.problem[..|pos| + 1][..|pos|];
        }
      }
    }
  }

  /** The window `printSmartly` walks the chosen element with. */
  function PrintWindow(file: Element, problem: seq<nat>, hasDocument: bool, tag: string, isKotlinKeyword: string -> bool): Window
    requires ValidPath(file, problem)
  {
    var at := FindElementToPrint(file, problem, hasDocument);
    Window(problem[|at|..], At(file, problem).line, tag, isKotlinKeyword)
  }

  /** The printed block: inside `pre`, a leading ellipsis exactly when some
      leaf before the window was left out, then a snapshot holding the emitted
      leaves' texts in depth-first order and exactly one problem tag, then a
      trailing ellipsis exactly when some leaf after the window was left out. */
  lemma PrintSmartlyMeaning(file: Element, problem: seq<nat>, hasDocument: bool, tag: string, isKotlinKeyword: string -> bool)
    requires ValidPath(file, problem)
    requires tag != KeywordTag
    ensures var at := FindElementToPrint(file, problem, hasDocument);
            var w := PrintWindow(file, problem, hasDocument, tag, isKotlinKeyword);
            var hs := Leaves(At(file, at), []);
            exists snapshot :: 
              && PrintSmartly(file, problem, hasDocument, tag, isKotlinKeyword)
                 == Tag("pre", Marker(ElidedBefore(hs, w)) + snapshot + Marker(ElidedAfter(hs, w)))
              && Texts(snapshot) == EmittedTexts(hs, w)
              && CountTags(snapshot, tag) == 1
  {
    var at := FindElementToPrint(file, problem, hasDocument);
    var w := PrintWindow(file, problem, hasDocument, tag, isKotlinKeyword);
    ValidPathSplit(file, problem, |at|);
    assert FlagMatches([], false, w);
    VisitMeaning(At(file, at), [], false, w);
    VisitProblemTag(At(file, at), [], false, w);
    assert ProblemBelow(At(file, at), [], w);
    var walk := Visit(At(file, at), [], false, w);
    assert PrintSmartly(file, problem, hasDocument, tag, isKotlinKeyword)
           == Tag("pre", Marker(walk.before) + walk.out + Marker(walk.after));
  }

  // ---------------------------------------------------------------------------
  // The shape of the printed block: flat except for the one problem tag.

  /** The printed form of the leaves `hs`: each emitted leaf as `LeafHtml`,
      in order; a leaf left out prints nothing. */
  function Rendered(hs: seq<Hit>, w: Window): seq<Html>
  {
    if |hs| == 0 then [] else (if Emitted(hs[0], w) then [LeafHtml(hs[0].leaf, w)] else []) + Rendered(hs[1..], w)
  }

  function LeafTexts(hs: seq<Hit>): seq<string>
  {
    if |hs| == 0 then [] else [hs[0].leaf.text] + LeafTexts(hs[1..])
  }

  lemma {:induction false} RenderedAppend(a: seq<Hit>, b: seq<Hit>, w: Window)
    ensures Rendered(a + b, w) == Rendered(a, w) + Rendered(b, w)
  {
    if |a| > 0 {
      assert (a + b)[0] == a[0];
      assert (a + b)[1..] == a[1..] + b;
      RenderedAppend(a[1..], b, w);
    } else {
      assert a + b == b;
    }
  }

  /** `out` is `hs` printed with the leaves `inner` wrapped in the problem tag
      and the leaves around it printed as they are. */
  predicate Shaped(out: seq<Html>, hs: seq<Hit>, l1: seq<Hit>, inner: seq<Hit>, l3: seq<Hit>, w: Window)
  {
    hs == l1 + inner + l3 && out == Rendered(l1, w) + [Tag(w.tag, Rendered(inner, w))] + Rendered(l3, w)
  }

  /** `out` is `hs` printed with the leaves `inner`, a stretch of `hs`, inside
      the problem tag. */
  ghost predicate ShapedAround(out: seq<Html>, hs: seq<Hit>, inner: seq<Hit>, w: Window)
  {
    exists l1, l3 :: Shaped(out, hs, l1, inner, l3, w)
  }

  lemma FlagChild(pos: seq<nat>, inside: bool, w: Window, i: nat)
    requires inside <==> IsPrefix(w.problem, pos)
    ensures FlagMatches(pos + [i], inside, w)
  {
    if IsPrefix(w.problem, pos + [i]) && |w.problem| < |pos + [i]| {
      assert (pos + [i])[..|w.problem|] == pos[..|w.problem|];
    }
    if IsPrefix(w.problem, pos) {
      assert (pos + [i])[..|w.problem|] == pos[..|w.problem|];
    }
  }

  /** The problem lies below child `j` of the element at `pos`. */
  predicate ProblemUnderChild(e: Element, pos: seq<nat>, w: Window, j: nat)
  {
    && IsPrefix(pos, w.problem) && |w.problem| > |pos| && w.problem[|pos|] == j
    && j < |e.children| && ValidPath(e.children[j], w.problem[|pos| + 1..])
  }

  lemma ProblemBelowChild(e: Element, pos: seq<nat>, w: Window, i: nat)
    requires i < |e.children|
    ensures ProblemBelow(e.children[i], pos + [i], w) <==> ProblemUnderChild(e, pos, w, i)
  {
    if IsPrefix(pos + [i], w.problem) {
      assert w.problem[..|pos|] == w.problem[..|pos| + 1][..|pos|];
      assert w.problem[|pos|] == w.problem[..|pos| + 1][|pos|];
    }
    if IsPrefix(pos, w.problem) && |w.problem| > |pos| && w.problem[|pos|] == i {
      assert w.problem[..|pos| + 1] == w.problem[..|pos|] + [w.problem[|pos|]];
    }
  }

  lemma ProblemBelowSplit(e: Element, pos: seq<nat>, w: Window)
    requires IsPrefix(pos, w.problem) && |w.problem| > |pos|
    ensures ProblemBelow(e, pos, w) <==> ProblemUnderChild(e, pos, w, w.problem[|pos|])
    ensures ProblemBelow(e, pos, w) ==>
              At(e, w.problem[|pos|..]) == At(e.children[w.problem[|pos|]], w.problem[|pos| + 1..])
  {
    assert w.problem[|pos|..][0] == w.problem[|pos|];
    assert w.problem[|pos|..][1..] == w.problem[|pos| + 1..];
  }

  /** Without the problem element below it, a visit prints its leaves flat. */
  lemma {:induction false} VisitPlain(e: Element, pos: seq<nat>, inside: bool, w: Window)
    requires FlagMatches(pos, inside, w)
    requires !ProblemBelow(e, pos, w)
    ensures Visit(e, pos, inside, w).out == Rendered(Leaves(e, pos), w)
    decreases e, |e.children| + 1
  {
    assert pos[|pos|..] == [];
    assert IsPrefix(pos, pos) && ValidPath(e, pos[|pos|..]);
    assert pos != w.problem;
    FlagStep(pos, inside, w, 0);
    if e.IsLeaf() {
      assert Leaves(e, pos) == [Hit(e, pos)];
    } else {
      if IsPrefix(pos, w.problem) && |w.problem| > |pos| {
        ProblemBelowSplit(e, pos, w);
      }
      VisitChildrenPlain(e, 0, pos, inside, w);
    }
  }

  lemma {:induction false} VisitChildrenPlain(e: Element, i: nat, pos: seq<nat>, inside: bool, w: Window)
    requires i <= |e.children|
    requires inside <==> IsPrefix(w.problem, pos)
    requires forall j :: i <= j < |e.children| ==> !ProblemUnderChild(e, pos, w, j)
    ensures VisitChildren(e, i, pos, inside, w).out == Rendered(LeavesFrom(e, i, pos), w)
    decreases e, |e.children| - i
  {
    if i < |e.children| {
      FlagChild(pos, inside, w, i);
      ProblemBelowChild(e, pos, w, i);
      VisitPlain(e.children[i], pos + [i], inside, w);
      VisitChildrenPlain(e, i + 1, pos, inside, w);
      RenderedAppend(Leaves(e.children[i], pos + [i]), LeavesFrom(e, i + 1, pos), w);
    }
  }

  /** The visit of the problem element itself: its leaves, all printed, inside
      the problem tag. */
  lemma VisitProblemElement(e: Element, pos: seq<nat>, inside: bool, w: Window)
    requires FlagMatches(pos, inside, w)
    requires pos == w.problem
    ensures Visit(e, pos, inside, w).out == [Tag(w.tag, Rendered(Leaves(e, pos), w))]
  {
    assert IsPrefix(w.problem, pos);
    if e.IsLeaf() {
      var hs := [Hit(e, pos)];
      assert Leaves(e, pos) == hs;
      assert Emitted(hs[0], w);
      assert hs[1..] == [];
      assert Rendered(hs, w) == [LeafHtml(e, w)];
      assert VisitLeaf(e, true, w).out == [LeafHtml(e, w)];
    } else {
      VisitChildrenPlain(e, 0, pos, true, w);
    }
  }

  /** With the problem element below it, a visit prints its leaves flat except
      for the problem element's leaves, which sit inside the one problem tag. */
  lemma {:induction false} VisitShape(e: Element, pos: seq<nat>, inside: bool, w: Window)
    requires FlagMatches(pos, inside, w)
    requires ProblemBelow(e, pos, w)
    ensures ShapedAround(Visit(e, pos, inside, w).out, Leaves(e, pos), Leaves(At(e, w.problem[|pos|..]), w.problem), w)
    decreases e, |e.children| + 1
  {
    var hs := Leaves(e, pos);
    if pos == w.problem {
      assert w.problem[|pos|..] == [];
      VisitProblemElement(e, pos, inside, w);
      assert hs == [] + hs + [];
      assert Shaped(Visit(e, pos, inside, w).out, hs, [], hs, [], w);
    } else {
      FlagStep(pos, inside, w, 0);
      ProblemBelowSplit(e, pos, w);
      var j := w.problem[|pos|];
      var inner := Leaves(At(e.children[j], w.problem[|pos| + 1..]), w.problem);
      VisitChildrenShape(e, 0, pos, inside, w);
      assert Visit(e, pos, inside, w).out == VisitChildren(e, 0, pos, inside, w).out;
      assert hs == LeavesFrom(e, 0, pos);
    }
  }

  lemma {:induction false} VisitChildrenShape(e: Element, i: nat, pos: seq<nat>, inside: bool, w: Window)
    requires i <= |e.children|
    requires inside <==> IsPrefix(w.problem, pos)
    requires IsPrefix(pos, w.problem) && |w.problem| > |pos| && i <= w.problem[|pos|]
    requires ProblemUnderChild(e, pos, w, w.problem[|pos|])
    ensures ShapedAround(VisitChildren(e, i, pos, inside, w).out, LeavesFrom(e, i, pos),
                         Leaves(At(e.children[w.problem[|pos|]], w.problem[|pos| + 1..]), w.problem), w)
    decreases e, |e.children| - i
  {
    FlagChild(pos, inside, w, i);
    ProblemBelowChild(e, pos, w, i);
    var inner := Leaves(At(e.children[w.problem[|pos|]], w.problem[|pos| + 1..]), w.problem);
    var a := Visit(e.children[i], pos + [i], inside, w);
    var b := VisitChildren(e, i + 1, pos, inside, w);
    assert VisitChildren(e, i, pos, inside, w).out == a.out + b.out;
    assert LeavesFrom(e, i, pos) == Leaves(e.children[i], pos + [i]) + LeavesFrom(e, i + 1, pos);
    if i < w.problem[|pos|] {
      VisitPlain(e.children[i], pos + [i], inside, w);
      VisitChildrenShape(e, i + 1, pos, inside, w);
      ShapeBefore(a.out, Leaves(e.children[i], pos + [i]), b.out, LeavesFrom(e, i + 1, pos), inner, w);
    } else {
      assert w.problem[|pos + [i]|..] == w.problem[|pos| + 1..];
      VisitShape(e.children[i], pos + [i], inside, w);
      VisitChildrenPlain(e, i + 1, pos, inside, w);
      ShapeAfter(a.out, Leaves(e.children[i], pos + [i]), b.out, LeavesFrom(e, i + 1, pos), inner, w);
    }
  }

  /** Flat output in front of a shaped one keeps the shape. */
  lemma ShapeBefore(out1: seq<Html>, hs1: seq<Hit>, out2: seq<Html>, hs2: seq<Hit>, inner: seq<Hit>, w: Window)
    requires out1 == Rendered(hs1, w)
    requires ShapedAround(out2, hs2, inner, w)
    ensures ShapedAround(out1 + out2, hs1 + hs2, inner, w)
  {
    var l1, l3 :| Shaped(out2, hs2, l1, inner, l3, w);
    var t := [Tag(w.tag, Rendered(inner, w))];
    RenderedAppend(hs1, l1, w);
    Assoc(out1, Rendered(l1, w) + t, Rendered(l3, w));
    Assoc(out1, Rendered(l1, w), t);
    Assoc(hs1, l1 + inner, l3);
    Assoc(hs1, l1, inner);
    assert Shaped(out1 + out2, hs1 + hs2, hs1 + l1, inner, l3, w);
  }

  /** Flat output behind a shaped one keeps the shape. */
  lemma ShapeAfter(out1: seq<Html>, hs1: seq<Hit>, out2: seq<Html>, hs2: seq<Hit>, inner: seq<Hit>, w: Window)
    requires ShapedAround(out1, hs1, inner, w)
    requires out2 == Rendered(hs2, w)
    ensures ShapedAround(out1 + out2, hs1 + hs2, inner, w)
  {
    var l1, l3 :| Shaped(out1, hs1, l1, inner, l3, w);
    var t := [Tag(w.tag, Rendered(inner, w))];
    RenderedAppend(l3, hs2, w);
    Assoc(Rendered(l1, w) + t, Rendered(l3, w), out2);
    Assoc(l1 + inner, l3, hs2);
    assert Shaped(out1 + out2, hs1 + hs2, l1, inner, l3 + hs2, w);
  }

  /** Every leaf below the element at `q` has a path extending `q`. */
  lemma {:induction false} LeavesUnder(e: Element, q: seq<nat>)
    ensures forall k :: 0 <= k < |Leaves(e, q)| ==> IsPrefix(q, Leaves(e, q)[k].path)
    decreases e, |e.children| + 1
  {
    if !e.IsLeaf() {
      LeavesFromUnder(e, 0, q);
    }
  }

  lemma {:induction false} LeavesFromUnder(e: Element, i: nat, q: seq<nat>)
    requires i <= |e.children|
    ensures forall k :: 0 <= k < |LeavesFrom(e, i, q)| ==> IsPrefix(q, LeavesFrom(e, i, q)[k].path)
    decreases e, |e.children| - i
  {
    if i < |e.children| {
      var a: seq<Hit> := Leaves(e.children[i], q + [i]);
      var b: seq<Hit> := LeavesFrom(e, i + 1, q);
      LeavesUnder(e.children[i], q + [i]);
      LeavesFromUnder(e, i + 1, q);
      forall k | 0 <= k < |a + b|
        ensures IsPrefix(q, (a + b)[k].path)
      {
        if k < |a| {
          var p := a[k].path;
          assert IsPrefix(q + [i], p);
          assert p[..|q|] == p[..|q| + 1][..|q|];
        } else {
          assert (a + b)[k] == b[k - |a|];
        }
      }
    }
  }

  /** When every leaf is emitted, each is printed, in order. */
  lemma {:induction false} RenderedAllEmitted(hs: seq<Hit>, w: Window)
    requires forall k :: 0 <= k < |hs| ==> Emitted(hs[k], w)
    ensures |Rendered(hs, w)| == |hs|
    ensures forall k :: 0 <= k < |hs| ==> Rendered(hs, w)[k] == LeafHtml(hs[k].leaf, w)
    ensures Texts(Rendered(hs, w)) == LeafTexts(hs)
  {
    if |hs| > 0 {
      assert Emitted(hs[0], w);
      RenderedAllEmitted(hs[1..], w);
      LeafHtmlTexts(hs[0].leaf, w);
      TextsAppend([LeafHtml(hs[0].leaf, w)], Rendered(hs[1..], w));
    }
  }

  /** The problem tag's body: every leaf of the problem element, in order, as
      its text, inside the keyword tag exactly when the leaf is a keyword. */
  lemma ProblemTagBody(e: Element, w: Window)
    ensures var inner := Leaves(e, w.problem);
            && |Rendered(inner, w)| == |inner|
            && (forall k :: 0 <= k < |inner| ==> Rendered(inner, w)[k] == LeafHtml(inner[k].leaf, w))
            && Texts(Rendered(inner, w)) == LeafTexts(inner)
  {
    LeavesUnder(e, w.problem);
    RenderedAllEmitted(Leaves(e, w.problem), w);
  }

  /** The walk from the root of the printed element: its ellipsis flags as
      `ElidedBefore`/`ElidedAfter` say, and its snapshot in the problem-tag shape. */
  lemma WalkShape(e: Element, w: Window) returns (l1: seq<Hit>, l3: seq<Hit>)
    requires FlagMatches([], false, w)
    requires ValidPath(e, w.problem)
    ensures var walk := Visit(e, [], false, w);
            && walk.before == ElidedBefore(Leaves(e, []), w)
            && walk.after == ElidedAfter(Leaves(e, []), w)
            && Shaped(walk.out, Leaves(e, []), l1, Leaves(At(e, w.problem), w.problem), l3, w)
  {
    var root: seq<nat> := [];
    assert w.problem[..|root|] == root && w.problem[|root|..] == w.problem;
    assert ProblemBelow(e, root, w);
    VisitMeaning(e, root, false, w);
    VisitShape(e, root, false, w);
    l1, l3 :| Shaped(Visit(e, root, false, w).out, Leaves(e, root), l1, Leaves(At(e, w.problem), w.problem), l3, w);
  }

  /** The printed block as a whole: inside `pre`, the optional leading
      ellipsis, the leaves of the chosen element printed flat in depth-first
      order except that the problem element's leaves sit inside the one
      problem tag, and the optional trailing ellipsis. */
  lemma PrintSmartlyShape(file: Element, problem: seq<nat>, hasDocument: bool, tag: string, isKotlinKeyword: string -> bool)
    requires ValidPath(file, problem)
    ensures var at := FindElementToPrint(file, problem, hasDocument);
            var w := PrintWindow(file, problem, hasDocument, tag, isKotlinKeyword);
            var hs := Leaves(At(file, at), []);
            var inner := Leaves(At(file, problem), w.problem);
            exists l1, l3 ::
              && hs == l1 + inner + l3
              && PrintSmartly(file, problem, hasDocument, tag, isKotlinKeyword)
                 == Tag("pre", Marker(ElidedBefore(hs, w))
                               + (Rendered(l1, w) + [Tag(tag, Rendered(inner, w))] + Rendered(l3, w))
                               + Marker(ElidedAfter(hs, w)))
  {
    var at := FindElementToPrint(file, problem, hasDocument);
    var w := PrintWindow(file, problem, hasDocument, tag, isKotlinKeyword);
    var e := At(file, at);
    ValidPathSplit(file, problem, |at|);
    assert FlagMatches([], false, w);
    var l1, l3 := WalkShape(e, w);
    var walk := Visit(e, [], false, w);
    assert PrintSmartly(file, problem, hasDocument, tag, isKotlinKeyword)
           == Tag("pre", Marker(walk.before) + walk.out + Marker(walk.after));
    assert At(e, w.problem) == At(file, problem);
    assert w.tag == tag;
  }
}

=== FILE: html_report.dfy ===
/** The HTML report (`HTMLGenerator`): reports are collected in call order and
    each is rendered as a location paragraph, the code block around the
    problem element when there is one, and the rendered message in italics. */
module HtmlReport {
  import opened Wrappers
  import opened Diagnostics
  import opened HtmlContext
  import Psi

  /** The report's `ProblemLevel`. */
  datatype ProblemLevel = ErrorLevel | WarningLevel | WeakWarningLevel | InformationLevel

  const ProblemTags: set<string> := {"unused", "error", "warning", "info"}

  /** The tag a problem's element is wrapped in: `unused` for a problem
      highlighted like an unused symbol, otherwise by level, weak warnings and
      information both being `info`. */
  function ProblemTag(highlightType: HighlightType, level: ProblemLevel): (tag: string)
    ensures tag in ProblemTags && tag != KeywordTag
    ensures tag == "unused" <==> highlightType == LikeUnusedSymbol
    ensures highlightType != LikeUnusedSymbol ==>
      && (tag == "error" <==> level == ErrorLevel)
      && (tag == "warning" <==> level == WarningLevel)
      && (tag == "info" <==> level in {WeakWarningLevel, InformationLevel})
  {
    if highlightType == LikeUnusedSymbol then "unused"
    else match level
      case ErrorLevel => "error"
      case WarningLevel => "warning"
      case WeakWarningLevel => "info"
      case InformationLevel => "info"
  }

  datatype Report = Report(problem: Pinned, level: ProblemLevel)

  /** The generator's state: the reports received so far. */
  datatype Generator = Generator(reports: seq<Report>)

  /** `report`: the problem is queued behind those reported before; the
      inspection class is not used. */
  function AddReport(g: Generator, problem: Pinned, level: ProblemLevel, inspectionClass: string): (r: Generator)
    ensures |r.reports| == |g.reports| + 1
    ensures r.reports[..|g.reports|] == g.reports && r.reports[|g.reports|] == Report(problem, level)
  {
    Generator(g.reports + [Report(problem, level)])
  }

  function LocationParagraph(p: Pinned): Html
  {
    Tag("p", [Text("In file "), Tag("b", [Text(RenderLocation(p))]), Text(":")])
  }

  function Caption(p: Pinned): Html
  {
    Tag("p", [Tag("i", [Text(Render(p))])])
  }

  /** The code block, present only when the problem has an element. */
  function CodeBlock(r: Report, isKotlinKeyword: string -> bool): seq<Html>
  {
    match r.problem.problem.element
    case None => []
    case Some(a) =>
      [PrintSmartly(a.file, a.path, a.hasDocument, ProblemTag(r.problem.problem.highlightType, r.level), isKotlinKeyword)]
  }

  function ReportBlock(r: Report, isKotlinKeyword: string -> bool): seq<Html>
  {
    [LocationParagraph(r.problem)] + CodeBlock(r, isKotlinKeyword) + [Caption(r.problem)]
  }

  /** `generateBody`: the reports' blocks, in order. */
  function GenerateBody(rs: seq<Report>, isKotlinKeyword: string -> bool): seq<Html>
  {
    if |rs| == 0 then [] else ReportBlock(rs[0], isKotlinKeyword) + GenerateBody(rs[1..], isKotlinKeyword)
  }

  /** `generate`: the document with its style block and body. */
  function Generate(g: Generator, isKotlinKeyword: string -> bool): Html
  {
    Tag("html", [Tag("head", [Tag("style", [])]), Tag("body", GenerateBody(g.reports, isKotlinKeyword))])
  }

  lemma {:induction false} GenerateBodyAppend(rs: seq<Report>, r: Report, isKotlinKeyword: string -> bool)
    ensures GenerateBody(rs + [r], isKotlinKeyword) == GenerateBody(rs, isKotlinKeyword) + ReportBlock(r, isKotlinKeyword)
  {
    if |rs| == 0 {
      assert rs + [r] == [r];
    } else {
      assert (rs + [r])[1..] == rs[1..] + [r];
      GenerateBodyAppend(rs[1..], r, isKotlinKeyword);
    }
  }

  /** A report is rendered after everything reported before it: the body gains
      exactly the new report's block, at its end. */
  lemma ReportOrder(g: Generator, problem: Pinned, level: ProblemLevel, inspectionClass: string, isKotlinKeyword: string -> bool)
    ensures Generate(AddReport(g, problem, level, inspectionClass), isKotlinKeyword)
            == Tag("html", [Tag("head", [Tag("style", [])]),
                            Tag("body", GenerateBody(g.reports, isKotlinKeyword) + ReportBlock(Report(problem, level), isKotlinKeyword))])
  {
    GenerateBodyAppend(g.reports, Report(problem, level), isKotlinKeyword);
  }

  /** Each block is the location paragraph (whose location text reads back as
      the file, the 1-based line and the 1-based column), the code block when
      the problem has an element, and the message caption; the problem tag
      occurs once in the block when there is a code block, and not otherwise. */
  lemma ReportBlockMeaning(r: Report, isKotlinKeyword: string -> bool)
    ensures var b := ReportBlock(r, isKotlinKeyword);
            var p := r.problem;
            && |b| == (if p.problem.element.Some? then 3 else 2)
            && Texts([b[0]]) == ["In file ", RenderLocation(p), ":"]
            && ParseLocation(Texts([b[0]])[1]) == Some((p.fileName, p.line + 1, p.row + 1))
            && Texts([b[|b| - 1]]) == [Render(p)]
            && CountTags(b, ProblemTag(p.problem.highlightType, r.level))
               == if p.problem.element.Some? then 1 else 0
  {
    var p := r.problem;
    var tag := ProblemTag(p.problem.highlightType, r.level);
    var loc := LocationParagraph(p);
    var cap := Caption(p);
    LocationParagraphFacts(p, tag);
    CaptionFacts(p, tag);
    ParseRenderLocation(p);
    CodeBlockTags(r, isKotlinKeyword);
    CountTagsAppend([loc] + CodeBlock(r, isKotlinKeyword), [cap], tag);
    CountTagsAppend([loc], CodeBlock(r, isKotlinKeyword), tag);
  }

  lemma LocationParagraphFacts(p: Pinned, tag: string)
    requires tag in ProblemTags
    ensures Texts([LocationParagraph(p)]) == ["In file ", RenderLocation(p), ":"]
    ensures CountTags([LocationParagraph(p)], tag) == 0
  {
    LocationParagraphTexts(p);
    LocationParagraphTags(p, tag);
  }

  lemma LocationParagraphTexts(p: Pinned)
    ensures Texts([LocationParagraph(p)]) == ["In file ", RenderLocation(p), ":"]
  {
    var loc := LocationParagraph(p);
    var b := Tag("b", [Text(RenderLocation(p))]);
    var head := [Text("In file ")] + [b];
    assert loc.body == head + [Text(":")];
    TextsSingle(loc);
    TextsAppend(head, [Text(":")]);
    TextsAppend([Text("In file ")], [b]);
    TextsSingle(Text("In file "));
    TextsSingle(b);
    TextsSingle(Text(RenderLocation(p)));
    TextsSingle(Text(":"));
  }

  lemma LocationParagraphTags(p: Pinned, tag: string)
    requires tag in ProblemTags
    ensures CountTags([LocationParagraph(p)], tag) == 0
  {
    var loc := LocationParagraph(p);
    var b := Tag("b", [Text(RenderLocation(p))]);
    var head := [Text("In file ")] + [b];
    assert loc.body == head + [Text(":")];
    assert tag != "p" && tag != "b" by {
      assert tag == "unused" || tag == "error" || tag == "warning" || tag == "info";
    }
    CountTagsSingle(loc, tag);
    CountTagsAppend(head, [Text(":")], tag);
    CountTagsAppend([Text("In file ")], [b], tag);
    CountTagsSingle(Text("In file "), tag);
    CountTagsSingle(b, tag);
    CountTagsSingle(Text(RenderLocation(p)), tag);
    CountTagsSingle(Text(":"), tag);
  }

  lemma CaptionFacts(p: Pinned, tag: string)
    requires tag in ProblemTags
    ensures Texts([Caption(p)]) == [Render(p)]
    ensures CountTags([Caption(p)], tag) == 0
  {
    var cap := Caption(p);
    TextsSingle(cap);
    TextsSingle(Tag("i", [Text(Render(p))]));
    TextsSingle(Text(Render(p)));
    CountTagsSingle(cap, tag);
    CountTagsSingle(Tag("i", [Text(Render(p))]), tag);
    CountTagsSingle(Text(Render(p)), tag);
  }

  lemma CodeBlockTags(r: Report, isKotlinKeyword: string -> bool)
    ensures CountTags(CodeBlock(r, isKotlinKeyword), ProblemTag(r.problem.problem.highlightType, r.level))
            == if r.problem.problem.element.Some? then 1 else 0
  {
    var tag := ProblemTag(r.problem.problem.highlightType, r.level);
    match r.problem.problem.element
    case None =>
    case Some(a) =>
      PrintSmartlyOneTag(a.file, a.path, a.hasDocument, tag, isKotlinKeyword);
      CountTagsSingle(PrintSmartly(a.file, a.path, a.hasDocument, tag, isKotlinKeyword), tag);
  }

  /** The printed code block holds the problem tag exactly once. */
  lemma PrintSmartlyOneTag(file: Psi.Element, problem: seq<nat>, hasDocument: bool, tag: string, isKotlinKeyword: string -> bool)
    requires Psi.ValidPath(file, problem)
    requires tag in ProblemTags
    ensures CountTagsIn(PrintSmartly(file, problem, hasDocument, tag, isKotlinKeyword), tag) == 1
  {
    var at := FindElementToPrint(file, problem, hasDocument);
    var w := PrintWindow(file, problem, hasDocument, tag, isKotlinKeyword);
    Psi.ValidPathSplit(file, problem, |at|);
    assert FlagMatches([], false, w);
    VisitProblemTag(Psi.At(file, at), [], false, w);
    assert ProblemBelow(Psi.At(file, at), [], w);
    var walk := Visit(Psi.At(file, at), [], false, w);
    MarkerHasNoTags(walk.before, tag);
    MarkerHasNoTags(walk.after, tag);
    CountTagsAppend(Marker(walk.before) + walk.out, Marker(walk.after), tag);
    CountTagsAppend(Marker(walk.before), walk.out, tag);
  }

  lemma MarkerHasNoTags(present: bool, tag: string)
    ensures CountTags(Marker(present), tag) == 0
  {
    if present {
      CountTagsSingle(Text(Ellipsis), tag);
    }
  }
}

=== FILE: psi.dfy ===
/** The part of the host's syntax tree (PSI) the reports look at. An element is
    either a composite with children or a leaf (no first child). Each element
    carries the line the host's `getLine` reports for it; the tree root is the
    `PsiFile`. An element is identified by its path of child indices from the
    file root, so reference identity between elements is equality of paths. */
module Psi {

  /** The runtime class of an element, as far as the reports distinguish it:
      a `PsiKeyword`, some other `LeafPsiElement`, or anything else. */
  datatype ElementKind = KeywordElement | LeafElement | OtherElement

  datatype Element = Element(kind: ElementKind, line: int, text: string, children: seq<Element>)
  {
    predicate IsLeaf() {
      |children| == 0
    }
  }

  /** `path` leads from `e` to one of its descendants (or to `e` itself). */
  predicate ValidPath(e: Element, path: seq<nat>)
    decreases |path|
  {
    |path| == 0 || (path[0] < |e.children| && ValidPath(e.children[path[0]], path[1..]))
  }

  /** The element `path` leads to. */
  function At(e: Element, path: seq<nat>): Element
    requires ValidPath(e, path)
    decreases |path|
  {
    if |path| == 0 then e else At(e.children[path[0]], path[1..])
  }

  /** `p` is a prefix of `q`: the element at `p` is an ancestor-or-self of the one at `q`. */
  predicate IsPrefix(p: seq<nat>, q: seq<nat>)
  {
    |p| <= |q| && q[..|p|] == p
  }

  /** Every prefix of a valid path is valid, and the rest is valid from there. */
  lemma {:induction false} ValidPathSplit(e: Element, path: seq<nat>, n: nat)
    requires ValidPath(e, path)
    requires n <= |path|
    ensures ValidPath(e, path[..n])
    ensures ValidPath(At(e, path[..n]), path[n..])
    ensures At(At(e, path[..n]), path[n..]) == At(e, path)
    decreases n
  {
    if n > 0 {
      ValidPathSplit(e.children[path[0]], path[1..], n - 1);
      assert path[..n][1..] == path[1..][..n - 1];
      assert path[1..][n - 1..] == path[n..];
    }
  }
}

=== FILE: runner.dfy ===
/** The runner around the tally: `analyzeTree` runs every selected local
    inspection over every file and collects pinned problems per inspection
    class, `analyzeTreeInIdea` turns any other exception into a
    `GradleException` and lets errors through, and `analyzeTreeAndLogResults` tallies the results and
    builds the XML report. */
module Runner {
  import opened Wrappers
  import opened Diagnostics
  import opened Selection
  import opened Tally
  import opened XmlReport
  import Seqs

  /** How far the host gets in resolving a file of the tree: a virtual file, its
      PSI file and its document, each of which may be missing. */
  datatype Resolution = NoVirtualFile | NoPsiFile | NoDocument | Resolved(document: Document)

  datatype SourceFile = SourceFile(path: string, resolution: Resolution)

  /** What a tool's visitor registers for a file, given by the file's path, or
      the exception or error the visitor throws. */
  type Analyzer = (Tool, string) -> Result<seq<Problem>, Failure>

  /** The results map: inspection class to its pinned problems. It is a
      `LinkedHashMap`, so it is kept as an association list in insertion order. */
  type Results = seq<(string, seq<Pinned>)>

  function Keys(m: Results): set<string>
  {
    set e | e in m :: e.0
  }

  predicate UniqueKeys(m: Results)
  {
    forall i, j :: 0 <= i < j < |m| ==> m[i].0 != m[j].0
  }

  function Get(m: Results, k: string): Option<seq<Pinned>>
  {
    if |m| == 0 then None else if m[0].0 == k then Some(m[0].1) else Get(m[1..], k)
  }

  function IndexOf(m: Results, k: string): (r: Option<nat>)
    ensures r.Some? ==> r.value < |m| && m[r.value].0 == k && forall j :: 0 <= j < r.value ==> m[j].0 != k
    ensures r.None? ==> k !in Keys(m)
  {
    if |m| == 0 then None
    else if m[0].0 == k then Some(0)
    else match IndexOf(m[1..], k)
      case None => assert forall e :: e in m ==> e == m[0] || e in m[1..]; None
      case Some(i) => Some(i + 1)
  }

  lemma {:induction false} GetAt(m: Results, i: nat)
    requires UniqueKeys(m) && i < |m|
    ensures Get(m, m[i].0) == Some(m[i].1)
  {
    if i > 0 {
      GetAt(m[1..], i - 1);
    }
  }

  lemma {:induction false} GetMissing(m: Results, k: string)
    requires k !in Keys(m)
    ensures Get(m, k) == None
  {
    if |m| > 0 {
      assert m[0] in m;
      assert Keys(m[1..]) <= Keys(m) by {
        forall e | e in m[1..] ensures e in m { }
      }
      GetMissing(m[1..], k);
    }
  }

  /** `results[k] = v`: an existing key keeps its position and takes the new
      value; a new key goes at the end. */
  function Put(m: Results, k: string, v: seq<Pinned>): (r: Results)
    requires UniqueKeys(m)
    ensures UniqueKeys(r)
    ensures Keys(r) == Keys(m) + {k}
    ensures Get(r, k) == Some(v)
    ensures forall k' :: k' != k ==> Get(r, k') == Get(m, k')
    ensures k in Keys(m) ==> |r| == |m| && forall i :: 0 <= i < |m| ==> r[i].0 == m[i].0
    ensures k !in Keys(m) ==> r == m + [(k, v)]
  {
    match IndexOf(m, k)
    case Some(i) =>
      var r := m[i := (k, v)];
      assert Keys(r) == Keys(m) by {
        forall x | x in Keys(r) ensures x in Keys(m) {
          var e :| e in r && e.0 == x;
          var j :| 0 <= j < |r| && r[j] == e;
          assert m[j].0 == x;
        }
        forall x | x in Keys(m) ensures x in Keys(r) {
          var e :| e in m && e.0 == x;
          var j :| 0 <= j < |m| && m[j] == e;
          assert r[j].0 == x;
        }
      }
      PutFacts(m, r, i, k, v);
      r
    case None =>
      var r := m + [(k, v)];
      assert Keys(r) == Keys(m) + {k} by {
        forall x | x in Keys(r) ensures x in Keys(m) + {k} {
          var e :| e in r && e.0 == x;
          var j :| 0 <= j < |r| && r[j] == e;
          if j < |m| { assert m[j] in m; }
        }
        assert r[|m|] in r;
        forall x | x in Keys(m) ensures x in Keys(r) {
          var e :| e in m && e.0 == x;
          var j :| 0 <= j < |m| && m[j] == e;
          assert r[j] in r;
        }
      }
      forall j | 0 <= j < |m| ensures m[j].0 != k { assert m[j] in m; }
      AppendFacts(m, k, v);
      r
  }

  lemma PutFacts(m: Results, r: Results, i: nat, k: string, v: seq<Pinned>)
    requires UniqueKeys(m) && i < |m| && m[i].0 == k && r == m[i := (k, v)]
    ensures UniqueKeys(r)
    ensures Get(r, k) == Some(v)
    ensures forall k' :: k' != k ==> Get(r, k') == Get(m, k')
  {
    GetAt(r, i);
    forall k' | k' != k
      ensures Get(r, k') == Get(m, k')
    {
      GetOther(m, r, i, k, v, k');
    }
  }

  lemma {:induction false} GetOther(m: Results, r: Results, i: nat, k: string, v: seq<Pinned>, k': string)
    requires i < |m| && m[i].0 == k && r == m[i := (k, v)] && k' != k
    ensures Get(r, k') == Get(m, k')
  {
    if i > 0 {
      GetOther(m[1..], r[1..], i - 1, k, v, k');
    }
  }

  lemma {:induction false} AppendFacts(m: Results, k: string, v: seq<Pinned>)
    requires UniqueKeys(m)
    requires forall j :: 0 <= j < |m| ==> m[j].0 != k
    ensures UniqueKeys(m + [(k, v)])
    ensures Get(m + [(k, v)], k) == Some(v)
    ensures forall k' :: k' != k ==> Get(m + [(k, v)], k') == Get(m, k')
  {
    if |m| > 0 {
      AppendFacts(m[1..], k, v);
      assert (m + [(k, v)])[1..] == m[1..] + [(k, v)];
    }
  }

  /** All pinned problems of the map, inspection by inspection, in order. */
  function Flatten(m: Results): seq<Finding>
  {
    if |m| == 0 then [] else FindingsOf(m[0].0, m[0].1) + Flatten(m[1..])
  }

  function FindingsOf(k: string, ps: seq<Pinned>): (fs: seq<Finding>)
    ensures |fs| == |ps|
    ensures forall i :: 0 <= i < |ps| ==> fs[i] == Finding(k, ps[i])
  {
    if |ps| == 0 then [] else [Finding(k, ps[0])] + FindingsOf(k, ps[1..])
  }

  /** Pins every problem a tool registered for one file; the first exception aborts. */
  function PinAll(ps: seq<Problem>, d: Document, displayName: string): (r: Result<seq<Pinned>, Failure>)
    ensures r.Success? <==> forall i :: 0 <= i < |ps| ==> Pin(ps[i], d, displayName).Success?
    ensures r.Success? ==> |r.value| == |ps| && forall i :: 0 <= i < |ps| ==> Pin(ps[i], d, displayName) == Success(r.value[i])
    ensures r.Failure? ==> PinFailsWith(ps, d, displayName, r.error)
  {
    if |ps| == 0 then Success([])
    else
      assert forall i :: 1 <= i < |ps| ==> ps[i] == ps[1..][i - 1];
      match Pin(ps[0], d, displayName)
      case Failure(e) => Failure(e)
      case Success(p) =>
        match PinAll(ps[1..], d, displayName)
        case Failure(e) =>
          assert PinFailsWith(ps, d, displayName, e) by {
            var j :| 0 <= j < |ps[1..]| && (forall j' :: 0 <= j' < j ==> Pin(ps[1..][j'], d, displayName).Success?)
                     && Pin(ps[1..][j], d, displayName) == Failure(e);
            assert Pin(ps[j + 1], d, displayName) == Failure(e);
          }
          Failure(e)
        case Success(rest) =>
          Success([p] + rest)
  }

  /** Pinning `ps` in order first throws `e`: every problem before some `ps[j]`
      pins, and pinning `ps[j]` throws `e`. */
  ghost predicate PinFailsWith(ps: seq<Problem>, d: Document, displayName: string, e: Failure)
  {
    exists j :: 0 <= j < |ps| && (forall j' :: 0 <= j' < j ==> Pin(ps[j'], d, displayName).Success?)
                && Pin(ps[j], d, displayName) == Failure(e)
  }

  /** A file the read action gets through: it resolves to a document, the
      tool's visitor does not throw, and every problem it registers can be
      pinned against that document. */
  predicate Pinnable(tool: Tool, f: SourceFile, analyze: Analyzer)
  {
    && f.resolution.Resolved?
    && analyze(tool, f.path).Success?
    && forall j :: 0 <= j < |analyze(tool, f.path).value| ==>
         Pin(analyze(tool, f.path).value[j], f.resolution.document, tool.displayName).Success?
  }

  /** The pinned problems of one such file, in the order the tool registered them. */
  function FilePins(tool: Tool, f: SourceFile, analyze: Analyzer): (ps: seq<Pinned>)
    requires Pinnable(tool, f, analyze)
  {
    var qs := analyze(tool, f.path).value;
    seq(|qs|, j requires 0 <= j < |qs| => Pin(qs[j], f.resolution.document, tool.displayName).value)
  }

  /** The pinned problems of all files, file after file in tree order. */
  function Collected(tool: Tool, files: seq<SourceFile>, analyze: Analyzer): seq<Pinned>
    requires forall i :: 0 <= i < |files| ==> Pinnable(tool, files[i], analyze)
  {
    if |files| == 0 then [] else FilePins(tool, files[0], analyze) + Collected(tool, files[1..], analyze)
  }

  /** The exception the read action throws at a file it does not get through:
      the message for the first missing piece, the visitor's exception, or the
      first pinning exception. */
  ghost predicate FileFailsWith(tool: Tool, f: SourceFile, analyze: Analyzer, e: Failure)
  {
    match f.resolution
    case NoVirtualFile => e == GradleException("Cannot find virtual file for " + f.path)
    case NoPsiFile => e == GradleException("Cannot find PSI file for " + f.path)
    case NoDocument => e == GradleException("Cannot get document for " + f.path)
    case Resolved(d) =>
      match analyze(tool, f.path)
      case Failure(thrown) => e == thrown
      case Success(qs) => PinFailsWith(qs, d, tool.displayName, e)
  }

  /** The read action of one tool: every file in tree order is resolved (a
      missing virtual file, PSI file or document throws), the tool's visitor
      runs over it (and may throw), and the problems it registered are pinned
      against the file's document. */
  function AnalyzeFiles(tool: Tool, files: seq<SourceFile>, analyze: Analyzer): (r: Result<seq<Pinned>, Failure>)
    ensures r.Success? <==> forall i :: 0 <= i < |files| ==> Pinnable(tool, files[i], analyze)
    ensures r.Success? ==> r.value == Collected(tool, files, analyze)
    ensures r.Failure? ==>
              exists i :: 0 <= i < |files| && (forall i' :: 0 <= i' < i ==> Pinnable(tool, files[i'], analyze))
                          && !Pinnable(tool, files[i], analyze) && FileFailsWith(tool, files[i], analyze, r.error)
    ensures (exists i :: 0 <= i < |files| && !files[i].resolution.Resolved?) ==> r.Failure?
  {
    if |files| == 0 then Success([])
    else
      var f := files[0];
      TailFacts(tool, files, analyze);
      match f.resolution
      case NoVirtualFile => Failure(GradleException("Cannot find virtual file for " + f.path))
      case NoPsiFile => Failure(GradleException("Cannot find PSI file for " + f.path))
      case NoDocument => Failure(GradleException("Cannot get document for " + f.path))
      case Resolved(d) =>
        match analyze(tool, f.path)
        case Failure(e) => Failure(e)
        case Success(qs) =>
          match PinAll(qs, d, tool.displayName)
          case Failure(e) => Failure(e)
          case Success(here) =>
            PinAllFilePins(tool, f, analyze);
            match AnalyzeFiles(tool, files[1..], analyze)
            case Failure(e) =>
              FailsLater(tool, files, analyze, e);
              Failure(e)
            case Success(rest) =>
              Success(here + rest)
  }

  lemma TailFacts(tool: Tool, files: seq<SourceFile>, analyze: Analyzer)
    requires |files| > 0
    ensures (forall i :: 0 <= i < |files| ==> Pinnable(tool, files[i], analyze))
            <==> Pinnable(tool, files[0], analyze) && forall i :: 0 <= i < |files[1..]| ==> Pinnable(tool, files[1..][i], analyze)
    ensures (exists i :: 0 <= i < |files| && !files[i].resolution.Resolved?)
            <==> !files[0].resolution.Resolved? || exists i :: 0 <= i < |files[1..]| && !files[1..][i].resolution.Resolved?
  {
    assert forall i :: 1 <= i < |files| ==> files[i] == files[1..][i - 1];
  }

  lemma PinAllFilePins(tool: Tool, f: SourceFile, analyze: Analyzer)
    requires f.resolution.Resolved? && analyze(tool, f.path).Success?
    requires PinAll(analyze(tool, f.path).value, f.resolution.document, tool.displayName).Success?
    ensures Pinnable(tool, f, analyze)
    ensures PinAll(analyze(tool, f.path).value, f.resolution.document, tool.displayName).value == FilePins(tool, f, analyze)
  {
  }

  lemma FailsLater(tool: Tool, files: seq<SourceFile>, analyze: Analyzer, e: Failure)
    requires |files| > 0 && Pinnable(tool, files[0], analyze)
    requires exists i :: 0 <= i < |files[1..]| && (forall i' :: 0 <= i' < i ==> Pinnable(tool, files[1..][i'], analyze))
                         && !Pinnable(tool, files[1..][i], analyze) && FileFailsWith(tool, files[1..][i], analyze, e)
    ensures exists i :: 0 <= i < |files| && (forall i' :: 0 <= i' < i ==> Pinnable(tool, files[i'], analyze))
                        && !Pinnable(tool, files[i], analyze) && FileFailsWith(tool, files[i], analyze, e)
  {
    var i :| 0 <= i < |files[1..]| && (forall i' :: 0 <= i' < i ==> Pinnable(tool, files[1..][i'], analyze))
             && !Pinnable(tool, files[1..][i], analyze) && FileFailsWith(tool, files[1..][i], analyze, e);
    assert files[i + 1] == files[1..][i];
    assert forall i' :: 1 <= i' < i + 1 ==> files[i'] == files[1..][i' - 1];
  }

  /** The classes of the local tools among `ws`. */
  function LocalClasses(ws: seq<Wrapper>): set<string>
  {
    set w | w in ws && w.tool.kind == Local :: w.classFqName
  }

  /** Every local wrapper among `ws` gets through the read action. */
  predicate LocalsRead(ws: seq<Wrapper>, files: seq<SourceFile>, analyze: Analyzer)
  {
    forall i :: 0 <= i < |ws| && ws[i].tool.kind == Local ==> AnalyzeFiles(ws[i].tool, files, analyze).Success?
  }

  /** `e` is what the read action of the first local wrapper that fails throws. */
  ghost predicate FirstFailure(ws: seq<Wrapper>, files: seq<SourceFile>, analyze: Analyzer, e: Failure)
  {
    exists i :: 0 <= i < |ws| && ws[i].tool.kind == Local && AnalyzeFiles(ws[i].tool, files, analyze) == Failure(e)
                && forall j :: 0 <= j < i && ws[j].tool.kind == Local ==> AnalyzeFiles(ws[j].tool, files, analyze).Success?
  }

  /** The keys of the results map in insertion order. */
  function KeyList(m: Results): (ks: seq<string>)
    ensures |ks| == |m| && forall i :: 0 <= i < |m| ==> ks[i] == m[i].0
  {
    if |m| == 0 then [] else [m[0].0] + KeyList(m[1..])
  }

  /** The class names of the local wrappers, in selection order. */
  function LocalNames(ws: seq<Wrapper>): seq<string>
  {
    if |ws| == 0 then []
    else (if ws[0].tool.kind == Local then [ws[0].classFqName] else []) + LocalNames(ws[1..])
  }

  /** The names in order, each at its first occurrence, leaving out those already `seen`. */
  function NewKeys(names: seq<string>, seen: seq<string>): seq<string>
  {
    if |names| == 0 then []
    else if names[0] in seen then NewKeys(names[1..], seen)
    else [names[0]] + NewKeys(names[1..], seen + [names[0]])
  }

  /** `Put` keeps the key order of a `LinkedHashMap`: a present key stays where
      it is, a new one goes last. */
  lemma {:induction false} KeyListPut(m: Results, k: string, v: seq<Pinned>)
    requires UniqueKeys(m)
    ensures KeyList(Put(m, k, v)) == if k in KeyList(m) then KeyList(m) else KeyList(m) + [k]
  {
    var r := Put(m, k, v);
    if k in KeyList(m) {
      var i :| 0 <= i < |m| && KeyList(m)[i] == k;
      assert m[i] in m;
      assert |KeyList(r)| == |KeyList(m)|;
      assert forall j :: 0 <= j < |m| ==> KeyList(r)[j] == KeyList(m)[j];
    } else {
      forall e | e in m
        ensures e.0 != k
      {
        var i :| 0 <= i < |m| && m[i] == e;
        assert KeyList(m)[i] == e.0;
      }
      assert r == m + [(k, v)];
      assert |KeyList(r)| == |KeyList(m) + [k]|;
      assert forall j :: 0 <= j < |r| ==> KeyList(r)[j] == (KeyList(m) + [k])[j];
    }
  }

  /** One step of the loop over a local wrapper keeps the key-order promise. */
  lemma {:induction false} KeyOrderTake(ws: seq<Wrapper>, acc: Results, next: Results, out: Results)
    requires |ws| > 0 && ws[0].tool.kind == Local
    requires KeyList(next) == if ws[0].classFqName in KeyList(acc) then KeyList(acc) else KeyList(acc) + [ws[0].classFqName]
    requires KeyList(out) == KeyList(next) + NewKeys(LocalNames(ws[1..]), KeyList(next))
    ensures KeyList(out) == KeyList(acc) + NewKeys(LocalNames(ws), KeyList(acc))
  {
    var k := ws[0].classFqName;
    if k !in KeyList(acc) {
      Seqs.Assoc(KeyList(acc), [k], NewKeys(LocalNames(ws[1..]), KeyList(acc) + [k]));
    }
  }

  /** The loop's verdict and first failure, one wrapper further on. */
  lemma {:induction false} LoopStep(ws: seq<Wrapper>, files: seq<SourceFile>, analyze: Analyzer)
    requires |ws| > 0
    ensures LocalsRead(ws, files, analyze)
            <==> (ws[0].tool.kind == Local ==> AnalyzeFiles(ws[0].tool, files, analyze).Success?) && LocalsRead(ws[1..], files, analyze)
    ensures forall e :: (ws[0].tool.kind == Local ==> AnalyzeFiles(ws[0].tool, files, analyze).Success?) && FirstFailure(ws[1..], files, analyze, e)
                        ==> FirstFailure(ws, files, analyze, e)
    ensures forall e :: ws[0].tool.kind == Local && AnalyzeFiles(ws[0].tool, files, analyze) == Failure(e)
                        ==> FirstFailure(ws, files, analyze, e)
  {
    assert forall i :: 1 <= i < |ws| ==> ws[i] == ws[1..][i - 1];
    forall e | (ws[0].tool.kind == Local ==> AnalyzeFiles(ws[0].tool, files, analyze).Success?) && FirstFailure(ws[1..], files, analyze, e)
      ensures FirstFailure(ws, files, analyze, e)
    {
      var i :| 0 <= i < |ws[1..]| && ws[1..][i].tool.kind == Local && AnalyzeFiles(ws[1..][i].tool, files, analyze) == Failure(e)
               && forall j :: 0 <= j < i && ws[1..][j].tool.kind == Local ==> AnalyzeFiles(ws[1..][j].tool, files, analyze).Success?;
      assert ws[i + 1] == ws[1..][i];
    }
  }

  /** The inspection loop of `analyzeTree`: tools that are not local are
      skipped; each local tool's problems over all files are stored under its
      class name. */
  function AnalyzeTree(ws: seq<Wrapper>, files: seq<SourceFile>, analyze: Analyzer, acc: Results): (r: Result<Results, Failure>)
    requires UniqueKeys(acc)
    ensures r.Success? ==> UniqueKeys(r.value) && Keys(r.value) == Keys(acc) + LocalClasses(ws)
    ensures (exists w :: w in ws && w.tool.kind == Local) && (exists i :: 0 <= i < |files| && !files[i].resolution.Resolved?)
            ==> r.Failure?
    ensures r.Success? ==> forall k :: k !in LocalClasses(ws) ==> Get(r.value, k) == Get(acc, k)
    ensures r.Success? ==> forall k :: k in LocalClasses(ws) ==> StoredBy(ws, files, analyze, r.value, k)
  {
    if |ws| == 0 then Success(acc)
    else
      var w := ws[0];
      assert LocalClasses(ws) == (if w.tool.kind == Local then {w.classFqName} else {}) + LocalClasses(ws[1..]) by {
        assert forall x :: x in ws <==> x == w || x in ws[1..];
      }
      if w.tool.kind != Local then
        StoredSkip(ws, files, analyze, AnalyzeTree(ws[1..], files, analyze, acc));
        AnalyzeTree(ws[1..], files, analyze, acc)
      else
        match AnalyzeFiles(w.tool, files, analyze)
        case Failure(e) => Failure(e)
        case Success(ps) =>
          var next := Put(acc, w.classFqName, ps);
          var r := AnalyzeTree(ws[1..], files, analyze, next);
          StoredTake(ws, files, analyze, acc, ps, r);
          r
  }

  /** A skipped wrapper leaves the stored lists as the rest of the loop makes them. */
  lemma StoredSkip(ws: seq<Wrapper>, files: seq<SourceFile>, analyze: Analyzer, r: Result<Results, Failure>)
    requires |ws| > 0 && ws[0].tool.kind != Local
    requires r.Success? ==> forall k :: k in LocalClasses(ws[1..]) ==> StoredBy(ws[1..], files, analyze, r.value, k)
    ensures r.Success? ==> forall k :: k in LocalClasses(ws[1..]) ==> StoredBy(ws, files, analyze, r.value, k)
  {
    assert forall x :: x in ws[1..] ==> x in ws;
  }

  /** A local wrapper's list is stored under its class unless a later wrapper
      of the same class overwrites it. */
  lemma StoredTake(ws: seq<Wrapper>, files: seq<SourceFile>, analyze: Analyzer, acc: Results, ps: seq<Pinned>,
                   r: Result<Results, Failure>)
    requires |ws| > 0 && ws[0].tool.kind == Local && UniqueKeys(acc)
    requires AnalyzeFiles(ws[0].tool, files, analyze) == Success(ps)
    requires r.Success? ==> forall k :: k !in LocalClasses(ws[1..]) ==> Get(r.value, k) == Get(Put(acc, ws[0].classFqName, ps), k)
    requires r.Success? ==> forall k :: k in LocalClasses(ws[1..]) ==> StoredBy(ws[1..], files, analyze, r.value, k)
    ensures r.Success? ==> forall k :: k !in LocalClasses(ws[1..]) && k != ws[0].classFqName ==> Get(r.value, k) == Get(acc, k)
    ensures r.Success? ==> forall k :: k in LocalClasses(ws[1..]) || k == ws[0].classFqName ==> StoredBy(ws, files, analyze, r.value, k)
  {
    assert forall x :: x in ws[1..] ==> x in ws;
    assert ws[0] in ws;
  }

  /** The loop succeeds exactly when every local wrapper gets through the
      read action; otherwise it stops with what the first failing one throws. */
  lemma {:induction false} AnalyzeTreeVerdict(ws: seq<Wrapper>, files: seq<SourceFile>, analyze: Analyzer, acc: Results)
    requires UniqueKeys(acc)
    ensures AnalyzeTree(ws, files, analyze, acc).Success? <==> LocalsRead(ws, files, analyze)
    ensures AnalyzeTree(ws, files, analyze, acc).Failure? ==> FirstFailure(ws, files, analyze, AnalyzeTree(ws, files, analyze, acc).error)
  {
    if |ws| > 0 {
      var w := ws[0];
      LoopStep(ws, files, analyze);
      if w.tool.kind != Local {
        AnalyzeTreeVerdict(ws[1..], files, analyze, acc);
      } else {
        match AnalyzeFiles(w.tool, files, analyze)
        case Failure(e) =>
        case Success(ps) =>
          AnalyzeTreeVerdict(ws[1..], files, analyze, Put(acc, w.classFqName, ps));
      }
    }
  }

  /** The collected map keeps the insertion order of a `LinkedHashMap`: the
      keys of `acc`, then each local class name at its first occurrence. */
  lemma {:induction false} AnalyzeTreeKeyOrder(ws: seq<Wrapper>, files: seq<SourceFile>, analyze: Analyzer, acc: Results)
    requires UniqueKeys(acc)
    ensures AnalyzeTree(ws, files, analyze, acc).Success? ==>
              KeyList(AnalyzeTree(ws, files, analyze, acc).value) == KeyList(acc) + NewKeys(LocalNames(ws), KeyList(acc))
  {
    if |ws| == 0 {
      assert KeyList(acc) + [] == KeyList(acc);
    } else {
      var w := ws[0];
      if w.tool.kind != Local {
        assert LocalNames(ws) == [] + LocalNames(ws[1..]);
        assert [] + LocalNames(ws[1..]) == LocalNames(ws[1..]);
        AnalyzeTreeKeyOrder(ws[1..], files, analyze, acc);
      } else {
        match AnalyzeFiles(w.tool, files, analyze)
        case Failure(e) =>
        case Success(ps) =>
          var next := Put(acc, w.classFqName, ps);
          AnalyzeTreeKeyOrder(ws[1..], files, analyze, next);
          var r := AnalyzeTree(ws[1..], files, analyze, next);
          if r.Success? {
            KeyListPut(acc, w.classFqName, ps);
            KeyOrderTake(ws, acc, next, r.value);
          }
      }
    }
  }

  /** The list stored under `k` is what the read action collected for some
      local wrapper of class `k` (the last one run, when there are several). */
  ghost predicate StoredBy(ws: seq<Wrapper>, files: seq<SourceFile>, analyze: Analyzer, m: Results, k: string)
  {
    exists w :: w in ws && w.tool.kind == Local && w.classFqName == k
                && Get(m, k).Some? && AnalyzeFiles(w.tool, files, analyze) == Success(Get(m, k).value)
  }

  /** Tools that are not local play no part: running the loop over the
      wrappers is running it over their local tools alone. */
  lemma {:induction false} AnalyzeTreeLocalOnly(ws: seq<Wrapper>, files: seq<SourceFile>, analyze: Analyzer, acc: Results)
    requires UniqueKeys(acc)
    ensures AnalyzeTree(ws, files, analyze, acc) == AnalyzeTree(LocalOnly(ws), files, analyze, acc)
  {
    if |ws| > 0 {
      var w := ws[0];
      if w.tool.kind != Local {
        assert LocalOnly(ws) == LocalOnly(ws[1..]);
        AnalyzeTreeLocalOnly(ws[1..], files, analyze, acc);
      } else {
        var l := LocalOnly(ws);
        assert l == [w] + LocalOnly(ws[1..]);
        assert l[0] == w && l[1..] == LocalOnly(ws[1..]);
        match AnalyzeFiles(w.tool, files, analyze)
        case Failure(e) =>
        case Success(ps) =>
          AnalyzeTreeLocalOnly(ws[1..], files, analyze, Put(acc, w.classFqName, ps));
      }
    }
  }

  /** The `catch (e: Exception)` of `analyzeTreeInIdea`: a `GradleException`
      passes through, any other `Exception` is wrapped in one, and an `Error`
      is not caught at all. */
  function Rethrow(e: Failure): (r: Failure)
    ensures r.HostError? <==> e.HostError?
    ensures !e.HostError? ==> r.GradleException?
    ensures e.GradleException? || e.HostError? ==> r == e
    ensures e.HostException? ==> r.message == "EXCEPTION caught in inspection plugin (IDEA runReadAction): " + e.message
  {
    match e
    case GradleException(_) => e
    case HostException(m) => GradleException("EXCEPTION caught in inspection plugin (IDEA runReadAction): " + m)
    case HostError(_) => e
  }

  /** `analyzeTreeInIdea` once the application is up: the selected wrappers are
      run from an empty map, exceptions are rethrown as `GradleException`s and
      errors escape as they are. */
  function AnalyzeTreeInIdea(suite: Suite<LogLevel>, tools: seq<Tool>, files: seq<SourceFile>, analyze: Analyzer): (r: Result<Results, Failure>)
    ensures r.Failure? ==> r.error.GradleException? || r.error.HostError?
    ensures r.Success? ==> Keys(r.value) == LocalClasses(GetInspectionWrappers(suite, tools))
    ensures ((exists w :: w in GetInspectionWrappers(suite, tools) && w.tool.kind == Local) &&
             (exists i :: 0 <= i < |files| && !files[i].resolution.Resolved?)) ==> r.Failure?
    ensures r.Success? ==> forall k :: k in LocalClasses(GetInspectionWrappers(suite, tools)) ==>
                             StoredBy(GetInspectionWrappers(suite, tools), files, analyze, r.value, k)
  {
    match AnalyzeTree(GetInspectionWrappers(suite, tools), files, analyze, [])
    case Failure(e) => Failure(Rethrow(e))
    case Success(m) => Success(m)
  }

  /** `analyzeTreeInIdea` succeeds exactly when every selected local wrapper
      gets through the read action; otherwise it throws what the first failing
      one threw, rethrown. The map's keys come in selection order, once each. */
  lemma {:induction false} AnalyzeTreeInIdeaOutcome(suite: Suite<LogLevel>, tools: seq<Tool>, files: seq<SourceFile>, analyze: Analyzer)
    ensures var ws := GetInspectionWrappers(suite, tools);
            var r := AnalyzeTreeInIdea(suite, tools, files, analyze);
            && (r.Success? <==> LocalsRead(ws, files, analyze))
            && (r.Failure? ==> exists e :: FirstFailure(ws, files, analyze, e) && r.error == Rethrow(e))
            && (r.Success? ==> KeyList(r.value) == NewKeys(LocalNames(ws), []))
  {
    var ws := GetInspectionWrappers(suite, tools);
    AnalyzeTreeVerdict(ws, files, analyze, []);
    AnalyzeTreeKeyOrder(ws, files, analyze, []);
    assert KeyList([]) == [];
    assert [] + NewKeys(LocalNames(ws), []) == NewKeys(LocalNames(ws), []);
  }

  /** At most one throwable is the first failure of the loop. */
  lemma FirstFailureUnique(ws: seq<Wrapper>, files: seq<SourceFile>, analyze: Analyzer, e: Failure, e': Failure)
    requires FirstFailure(ws, files, analyze, e) && FirstFailure(ws, files, analyze, e')
    ensures e == e'
  {
    var i :| 0 <= i < |ws| && ws[i].tool.kind == Local && AnalyzeFiles(ws[i].tool, files, analyze) == Failure(e)
             && forall j :: 0 <= j < i && ws[j].tool.kind == Local ==> AnalyzeFiles(ws[j].tool, files, analyze).Success?;
    var i' :| 0 <= i' < |ws| && ws[i'].tool.kind == Local && AnalyzeFiles(ws[i'].tool, files, analyze) == Failure(e')
              && forall j :: 0 <= j < i' && ws[j].tool.kind == Local ==> AnalyzeFiles(ws[j].tool, files, analyze).Success?;
    assert !(i < i') && !(i' < i);
  }

  /** An `Error` thrown by the first failing read action is not caught:
      `analyzeTreeInIdea` lets it escape as it is, where an `Exception` would
      have come out wrapped. */
  lemma ErrorEscapes(suite: Suite<LogLevel>, tools: seq<Tool>, files: seq<SourceFile>, analyze: Analyzer, m: string)
    requires FirstFailure(GetInspectionWrappers(suite, tools), files, analyze, HostError(m))
    ensures AnalyzeTreeInIdea(suite, tools, files, analyze) == Failure(HostError(m))
  {
    var ws := GetInspectionWrappers(suite, tools);
    AnalyzeTreeInIdeaOutcome(suite, tools, files, analyze);
    var r := AnalyzeTreeInIdea(suite, tools, files, analyze);
    var i :| 0 <= i < |ws| && ws[i].tool.kind == Local && AnalyzeFiles(ws[i].tool, files, analyze) == Failure(HostError(m));
    assert !LocalsRead(ws, files, analyze);
    var e :| FirstFailure(ws, files, analyze, e) && r.error == Rethrow(e);
    FirstFailureUnique(ws, files, analyze, e, HostError(m));
  }

  /** What `analyzeTreeAndLogResults` hands back: the success flag, why the
      tally stopped, and the XML report when it is enabled. */
  datatype RunOutcome = RunOutcome(success: bool, stop: Stop, xml: Option<Xml>)

  /** The part of `analyzeTreeAndLogResults` after the analysis: the collected
      problems are tallied, and the report is built when it is enabled. */
  function LogResults(cfg: Config, results: Results): (r: RunOutcome)
    ensures r.xml.Some? <==> cfg.xmlEnabled
    ensures r.success <==> r.stop.Completed?
  {
    var t := Tally.Tally(cfg, Flatten(results));
    RunOutcome(
      t.Success(),
      t.stop,
      if cfg.xmlEnabled then Some(ReportElement(t.errorElements, t.warningElements, t.infoElements)) else None)
  }

  /** `analyzeTreeAndLogResults`. */
  function AnalyzeTreeAndLogResults(cfg: Config, tools: seq<Tool>, files: seq<SourceFile>, analyze: Analyzer): (r: Result<RunOutcome, Failure>)
    ensures r.Failure? <==> AnalyzeTreeInIdea(cfg.suite, tools, files, analyze).Failure?
    ensures r.Failure? ==> r.error == AnalyzeTreeInIdea(cfg.suite, tools, files, analyze).error
    ensures r.Failure? ==> r.error.GradleException? || r.error.HostError?
    ensures r.Success? ==> (r.value.xml.Some? <==> cfg.xmlEnabled) && (r.value.success <==> r.value.stop.Completed?)
    ensures r.Success? ==> r.value == LogResults(cfg, AnalyzeTreeInIdea(cfg.suite, tools, files, analyze).value)
  {
    var results :- AnalyzeTreeInIdea(cfg.suite, tools, files, analyze);
    Success(LogResults(cfg, results))
  }

  /** The whole run in terms of what the read actions give: it throws exactly
      when a selected local wrapper's read action does, with the first such
      exception rethrown; otherwise its verdict is that no prefix of the
      collected, levelled findings breaches a threshold, and the report reads
      back as the groups of the findings tallied before the stop. */
  lemma RunVerdict(cfg: Config, tools: seq<Tool>, files: seq<SourceFile>, analyze: Analyzer)
    ensures var ws := GetInspectionWrappers(cfg.suite, tools);
            var r := AnalyzeTreeAndLogResults(cfg, tools, files, analyze);
            && (r.Success? <==> LocalsRead(ws, files, analyze))
            && (r.Failure? ==> exists e :: FirstFailure(ws, files, analyze, e) && r.error == Rethrow(e))
    ensures var a := AnalyzeTreeInIdea(cfg.suite, tools, files, analyze);
            var r := AnalyzeTreeAndLogResults(cfg, tools, files, analyze);
            r.Success? ==> (r.value.success <==> NoBreach(cfg, Retain(cfg, Flatten(a.value))))
    ensures var a := AnalyzeTreeInIdea(cfg.suite, tools, files, analyze);
            var r := AnalyzeTreeAndLogResults(cfg, tools, files, analyze);
            r.Success? && cfg.xmlEnabled ==>
              var fs := Retain(cfg, Flatten(a.value));
              exists k: nat :: k <= |fs|
                && (r.value.success ==> k == |fs|)
                && (!r.value.success ==> FirstBreachAt(cfg, fs, k))
                && ReadReport(r.value.xml.value) == Some(Groups(fs[..k]))
  {
    AnalyzeTreeInIdeaOutcome(cfg.suite, tools, files, analyze);
    var a := AnalyzeTreeInIdea(cfg.suite, tools, files, analyze);
    if a.Success? {
      LogResultsVerdict(cfg, a.value);
      if cfg.xmlEnabled {
        LogResultsReport(cfg, a.value);
      }
    }
  }

  /** The run's verdict, in terms of the findings it collected: it succeeds
      exactly when no prefix of the levelled findings breaches a threshold. */
  lemma LogResultsVerdict(cfg: Config, results: Results)
    ensures LogResults(cfg, results).success <==> NoBreach(cfg, Retain(cfg, Flatten(results)))
  {
    TallyOutcome(cfg, Flatten(results));
  }

  /** The three groups the report holds after tallying exactly `ps`. */
  function Groups(ps: seq<Leveled>): (seq<ProblemRecord>, seq<ProblemRecord>, seq<ProblemRecord>)
  {
    (Records(ps, Errors), Records(ps, Warnings), Records(ps, Infos))
  }

  /** The written report reads back as the errors, warnings and infos among
      the first `k` levelled findings, in filing order: all of them after a
      successful run, and those up to and including the one that breached a
      threshold after a stop. */
  lemma LogResultsReport(cfg: Config, results: Results)
    requires cfg.xmlEnabled
    ensures var r := Retain(cfg, Flatten(results));
            exists k: nat :: k <= |r|
              && (LogResults(cfg, results).success ==> k == |r|)
              && (!LogResults(cfg, results).success ==> FirstBreachAt(cfg, r, k))
              && ReadReport(LogResults(cfg, results).xml.value) == Some(Groups(r[..k]))
  {
    var fs := Flatten(results);
    var r := Retain(cfg, fs);
    var t := Tally.Tally(cfg, fs);
    var x := LogResultsXml(cfg, results);
    if t.Success() {
      TallyOutcome(cfg, fs);
      assert r[..|r|] == r;
      ReportOfGroups(x, t.errorElements, t.warningElements, t.infoElements, Groups(r[..|r|]));
    } else {
      var k := BreachPoint(cfg, fs);
      SummaryGroups(cfg, r[..k], StopFor(cfg, r[..k]));
      ReportOfGroups(x, t.errorElements, t.warningElements, t.infoElements, Groups(r[..k]));
    }
  }

  /** The report `analyzeTreeAndLogResults` writes, when enabled, holds the tally's groups. */
  lemma LogResultsXml(cfg: Config, results: Results) returns (x: Xml)
    requires cfg.xmlEnabled
    ensures var t := Tally.Tally(cfg, Flatten(results));
            LogResults(cfg, results).xml == Some(x) && x == ReportElement(t.errorElements, t.warningElements, t.infoElements)
    ensures LogResults(cfg, results).success == Tally.Tally(cfg, Flatten(results)).Success()
  {
    x := LogResults(cfg, results).xml.value;
  }

  lemma SummaryGroups(cfg: Config, ps: seq<Leveled>, stop: Stop)
    requires cfg.xmlEnabled
    ensures var t := Summary(cfg, ps, stop);
            (t.errorElements, t.warningElements, t.infoElements) == Groups(ps)
  {
  }

  lemma ReportOfGroups(x: Xml, e: seq<ProblemRecord>, w: seq<ProblemRecord>, i: seq<ProblemRecord>,
                       g: (seq<ProblemRecord>, seq<ProblemRecord>, seq<ProblemRecord>))
    requires x == ReportElement(e, w, i) && (e, w, i) == g
    ensures ReadReport(x) == Some(g)
  {
    ReadReportElement(e, w, i);
  }

  /** Where a tally that stops early stopped. */
  lemma BreachPoint(cfg: Config, fs: seq<Finding>) returns (k: nat)
    requires !Tally.Tally(cfg, fs).Success()
    ensures FirstBreachAt(cfg, Retain(cfg, fs), k)
    ensures Tally.Tally(cfg, fs) == Summary(cfg, Retain(cfg, fs)[..k], StopFor(cfg, Retain(cfg, fs)[..k]))
  {
    TallyOutcome(cfg, fs);
    k :| FirstBreachAt(cfg, Retain(cfg, fs), k)
         && Tally.Tally(cfg, fs) == Summary(cfg, Retain(cfg, fs)[..k], StopFor(cfg, Retain(cfg, fs)[..k]));
  }

  predicate AllEmpty(m: Results)
  {
    forall i :: 0 <= i < |m| ==> m[i].1 == []
  }

  lemma {:induction false} FlattenAllEmpty(m: Results)
    requires AllEmpty(m)
    ensures Flatten(m) == []
  {
    if |m| > 0 {
      FlattenAllEmpty(m[1..]);
    }
  }

  lemma {:induction false} AnalyzeTreeNoFiles(ws: seq<Wrapper>, analyze: Analyzer, acc: Results)
    requires UniqueKeys(acc) && AllEmpty(acc)
    ensures AnalyzeTree(ws, [], analyze, acc).Success?
    ensures AllEmpty(AnalyzeTree(ws, [], analyze, acc).value)
  {
    if |ws| > 0 {
      var w := ws[0];
      if w.tool.kind != Local {
        AnalyzeTreeNoFiles(ws[1..], analyze, acc);
      } else {
        var next := Put(acc, w.classFqName, []);
        assert AllEmpty(next) by {
          forall i | 0 <= i < |next| ensures next[i].1 == [] {
            GetAt(next, i);
            if next[i].0 != w.classFqName {
              assert Get(acc, next[i].0) == Some(next[i].1);
              GetSome(acc, next[i].0);
            }
          }
        }
        AnalyzeTreeNoFiles(ws[1..], analyze, next);
      }
    }
  }

  lemma {:induction false} GetSome(m: Results, k: string)
    requires Get(m, k).Some?
    ensures exists i :: 0 <= i < |m| && m[i] == (k, Get(m, k).value)
  {
    if m[0].0 != k {
      GetSome(m[1..], k);
      var i :| 0 <= i < |m[1..]| && m[1..][i] == (k, Get(m, k).value);
      assert m[i + 1] == m[1..][i];
    }
  }

  /** With no files the run cannot fail: it succeeds with empty counts, and the
      report holds three empty groups. */
  lemma NoFilesSucceeds(cfg: Config, tools: seq<Tool>, analyze: Analyzer)
    ensures var r := AnalyzeTreeAndLogResults(cfg, tools, [], analyze);
            && r.Success? && r.value.success && r.value.stop == Completed
            && (cfg.xmlEnabled ==> ReadReport(r.value.xml.value) == Some(([], [], [])))
  {
    AnalyzeTreeNoFiles(GetInspectionWrappers(cfg.suite, tools), analyze, []);
    var m := AnalyzeTreeInIdea(cfg.suite, tools, [], analyze).value;
    FlattenAllEmpty(m);
    EmptyTally(cfg);
    ReadReportElement([], [], []);
  }
}

=== FILE: selection.dfy ===
/** Choosing the inspections to run (`getInspectionWrappers`) from the tools
    the host's registrar creates, and the local/global filter applied before a
    tool is run. */
module Selection {
  import opened Wrappers

  /** Whether a tool is a `LocalInspectionTool`, a `GlobalInspectionTool`, or neither. */
  datatype ToolKind = Local | Global | Neither

  /** An `InspectionToolWrapper` from the registrar: the tool's class name, its
      kind, and the display name of its extension point. */
  datatype Tool = Tool(className: string, kind: ToolKind, displayName: string)

  /** `PluginInspectionWrapper`: a tool together with the class name it is
      reported under. */
  datatype Wrapper = Wrapper(tool: Tool, classFqName: string)

  /** The configured `InspectionClassesSuite`: inherit every registered tool, or
      run the listed classes; `levels` holds the per-class default log levels. */
  datatype Suite<L> = Suite(inheritFromIdea: bool, classes: seq<string>, levels: map<string, L>)

  /** `getLevel`: the class's configured default level, if any. */
  function GetLevel<L>(suite: Suite<L>, inspectionClass: string): Option<L>
  {
    if inspectionClass in suite.levels then Some(suite.levels[inspectionClass]) else None
  }

  /** Some registered tool has class `name`. */
  predicate Known(tools: seq<Tool>, name: string)
  {
    exists t :: t in tools && t.className == name
  }

  /** `tools.find { … }`: the first tool whose class is `name`. */
  function Find(tools: seq<Tool>, name: string): (r: Option<nat>)
    ensures r.Some? ==> r.value < |tools| && tools[r.value].className == name
                        && forall j :: 0 <= j < r.value ==> tools[j].className != name
    ensures r.None? <==> !Known(tools, name)
  {
    if |tools| == 0 then None
    else if tools[0].className == name then Some(0)
    else match Find(tools[1..], name)
      case None => None
      case Some(i) => Some(i + 1)
  }

  /** The configured names that some tool answers to, in configuration order. */
  function KnownNames(tools: seq<Tool>, names: seq<string>): seq<string>
  {
    if |names| == 0 then []
    else (if Known(tools, names[0]) then [names[0]] else []) + KnownNames(tools, names[1..])
  }

  function ClassNames(ws: seq<Wrapper>): seq<string>
  {
    if |ws| == 0 then [] else [ws[0].classFqName] + ClassNames(ws[1..])
  }

  /** Explicit mode: each configured name is looked up; a name without a tool
      is dropped (the source logs it) and the lookup carries on. */
  function Lookup(tools: seq<Tool>, names: seq<string>): (ws: seq<Wrapper>)
    ensures ClassNames(ws) == KnownNames(tools, names)
    ensures forall i :: 0 <= i < |ws| ==>
      Find(tools, ws[i].classFqName).Some? && ws[i].tool == tools[Find(tools, ws[i].classFqName).value]
  {
    if |names| == 0 then []
    else
      var rest := Lookup(tools, names[1..]);
      match Find(tools, names[0])
      case None => rest
      case Some(k) => [Wrapper(tools[k], names[0])] + rest
  }

  /** `getInspectionWrappers`. */
  function GetInspectionWrappers<L>(suite: Suite<L>, tools: seq<Tool>): (ws: seq<Wrapper>)
    ensures suite.inheritFromIdea ==>
      |ws| == |tools| && forall i :: 0 <= i < |ws| ==> ws[i] == Wrapper(tools[i], tools[i].className)
    ensures !suite.inheritFromIdea ==> ClassNames(ws) == KnownNames(tools, suite.classes)
    ensures forall i :: 0 <= i < |ws| ==> ws[i].tool in tools && ws[i].tool.className == ws[i].classFqName
  {
    if suite.inheritFromIdea then Inherit(tools)
    else
      var ws := Lookup(tools, suite.classes);
      assert forall i :: 0 <= i < |ws| ==> ws[i].tool in tools by {
        forall i | 0 <= i < |ws|
          ensures ws[i].tool in tools
        {
          assert ws[i].tool == tools[Find(tools, ws[i].classFqName).value];
        }
      }
      ws
  }

  /** Inherit mode: every registered tool under its own class name. */
  function Inherit(tools: seq<Tool>): (ws: seq<Wrapper>)
    ensures |ws| == |tools|
    ensures forall i :: 0 <= i < |ws| ==> ws[i] == Wrapper(tools[i], tools[i].className)
  {
    if |tools| == 0 then [] else [Wrapper(tools[0], tools[0].className)] + Inherit(tools[1..])
  }

  /** A name is kept by the explicit lookup exactly when some tool answers to it. */
  lemma {:induction false} KnownNamesMembership(tools: seq<Tool>, names: seq<string>, n: string)
    ensures n in KnownNames(tools, names) <==> n in names && Known(tools, n)
  {
    if |names| > 0 {
      KnownNamesMembership(tools, names[1..], n);
      assert names == [names[0]] + names[1..];
    }
  }

  /** A configuration listing only known classes selects all of them, in order. */
  lemma {:induction false} KnownNamesAllKnown(tools: seq<Tool>, names: seq<string>)
    requires forall i :: 0 <= i < |names| ==> Known(tools, names[i])
    ensures KnownNames(tools, names) == names
  {
    if |names| > 0 {
      KnownNamesAllKnown(tools, names[1..]);
    }
  }

  /** The wrappers the runner actually runs: non-local tools are skipped (the
      source logs global ones as unsupported and the rest as unexpected). */
  function LocalOnly(ws: seq<Wrapper>): (r: seq<Wrapper>)
    ensures forall w :: w in r <==> w in ws && w.tool.kind == Local
    ensures |r| <= |ws|
  {
    if |ws| == 0 then []
    else (if ws[0].tool.kind == Local then [ws[0]] else []) + LocalOnly(ws[1..])
  }

  /** Filtering commutes with concatenation, so the local wrappers keep their
      relative order and multiplicity. */
  lemma {:induction false} LocalOnlyAppend(a: seq<Wrapper>, b: seq<Wrapper>)
    ensures LocalOnly(a + b) == LocalOnly(a) + LocalOnly(b)
  {
    if |a| == 0 {
      assert a + b == b;
    } else {
      assert (a + b)[0] == a[0];
      assert (a + b)[1..] == a[1..] + b;
      LocalOnlyAppend(a[1..], b);
    }
  }
}

=== FILE: seqs.dfy ===
/** Facts about sequences shared by the string and HTML models. */
module Seqs {
  /** Concatenation regroups freely; stated once so that proofs can name the
      regrouping they need instead of rediscovering it element by element. */
  lemma Assoc<T>(a: seq<T>, b: seq<T>, c: seq<T>)
    ensures a + (b + c) == (a + b) + c
  {
  }

  /** A non-empty prefix is the first element followed by the prefix of the rest. */
  lemma ConsPrefix<T>(s: seq<T>, k: nat)
    requires 0 < k <= |s|
    ensures [s[0]] + s[1..][..k - 1] == s[..k]
  {
  }
}

=== FILE: tally.dfy ===
/** The tally of `analyzeTreeAndLogResults`: problems are taken in order, each
    gets a log level, errors and warnings are counted, each problem is filed in
    one of the three XML groups, and the loop stops right after the first
    problem that takes a count over its threshold. */
module Tally {
  import opened Wrappers
  import opened Diagnostics
  import Selection
  import opened XmlReport

  /** The highlight types that decide a level by themselves. */
  predicate HasOwnLevel(highlightType: HighlightType)
  {
    highlightType in {HighlightType.Error, HighlightType.GenericError, HighlightType.WeakWarning, HighlightType.Information}
  }

  /** `ProblemDescriptor.level`: the highlight type decides the level where it
      can; otherwise the inspection's configured default applies, which may be
      missing. */
  function Level(highlightType: HighlightType, default: Option<LogLevel>): (r: Option<LogLevel>)
    ensures highlightType in {HighlightType.Error, HighlightType.GenericError} ==> r == Some(LogLevel.Error)
    ensures highlightType == HighlightType.WeakWarning ==> r == Some(LogLevel.Warn)
    ensures highlightType == HighlightType.Information ==> r == Some(LogLevel.Info)
    ensures !HasOwnLevel(highlightType) ==> r == default
    ensures r.None? ==> default.None?
  {
    match highlightType
    case Error => Some(LogLevel.Error)
    case GenericError => Some(LogLevel.Error)
    case WeakWarning => Some(LogLevel.Warn)
    case Information => Some(LogLevel.Info)
    case _ => default
  }

  /** One entry of the per-inspection results, flattened: the inspection class
      and a problem it reported. */
  datatype Finding = Finding(inspectionClass: string, problem: Pinned)

  /** The runner's settings that matter to the tally. */
  datatype Config = Config(suite: Selection.Suite<LogLevel>, maxErrors: int, maxWarnings: int, xmlEnabled: bool)

  /** A finding together with the level it was given. */
  datatype Leveled = Leveled(finding: Finding, level: LogLevel)

  /** Why the loop ended: it ran out of problems, or a count went over its threshold. */
  datatype Stop = Completed | TooManyErrors(errors: int) | TooManyWarnings(warnings: int)

  /** The loop's state: the two counters, the three XML groups in filing order,
      and whether the loop has stopped. */
  datatype TallyState = TallyState(
    errors: nat,
    warnings: nat,
    errorElements: seq<ProblemRecord>,
    warningElements: seq<ProblemRecord>,
    infoElements: seq<ProblemRecord>,
    stop: Stop)
  {
    predicate Success() {
      stop.Completed?
    }
  }

  datatype Group = Errors | Warnings | Infos

  /** The group a level files into: anything other than ERROR and WARN is an info. */
  function GroupOf(level: LogLevel): Group
  {
    match level
    case Error => Errors
    case Warn => Warnings
    case _ => Infos
  }

  /** The `severity` attribute written for a level. */
  function SeverityName(level: LogLevel): (s: string)
    ensures s == "ERROR" <==> level == LogLevel.Error
    ensures s == "WARNING" <==> level == LogLevel.Warn
    ensures s == "INFORMATION" <==> level != LogLevel.Error && level != LogLevel.Warn
  {
    match level
    case Error => "ERROR"
    case Warn => "WARNING"
    case _ => "INFORMATION"
  }

  function LevelOf(cfg: Config, f: Finding): Option<LogLevel>
  {
    Level(f.problem.problem.highlightType, Selection.GetLevel(cfg.suite, f.inspectionClass))
  }

  /** The `problem` element written for a finding: line and column are 1-based. */
  function Record(x: Leveled): (r: ProblemRecord)
    ensures r.line == x.finding.problem.line + 1 >= 1
    ensures r.row == x.finding.problem.row + 1 >= 1
    ensures r.file == x.finding.problem.fileName && r.javaClass == x.finding.inspectionClass
    ensures r.severity == SeverityName(x.level)
    ensures r.displayName == x.finding.problem.displayName
    ensures r.description == Render(x.finding.problem)
  {
    var p := x.finding.problem;
    ProblemRecord(p.fileName, p.line + 1, p.row + 1, x.finding.inspectionClass, SeverityName(x.level),
                  p.displayName, Render(p))
  }

  function File(t: TallyState, g: Group, r: ProblemRecord): TallyState
  {
    match g
    case Errors => t.(errorElements := t.errorElements + [r])
    case Warnings => t.(warningElements := t.warningElements + [r])
    case Infos => t.(infoElements := t.infoElements + [r])
  }

  /** One iteration of the inner loop for a problem with a level: count it,
      file it (when the XML report is enabled), then check the error threshold
      before the warning threshold. */
  function Step(cfg: Config, t: TallyState, x: Leveled): TallyState
  {
    var errors := t.errors + (if x.level == LogLevel.Error then 1 else 0);
    var warnings := t.warnings + (if x.level == LogLevel.Warn then 1 else 0);
    var counted := t.(errors := errors, warnings := warnings);
    var filed := if cfg.xmlEnabled then File(counted, GroupOf(x.level), Record(x)) else counted;
    filed.(stop := if errors > cfg.maxErrors then TooManyErrors(errors)
                   else if warnings > cfg.maxWarnings then TooManyWarnings(warnings)
                   else Completed)
  }

  /** The labelled loop over all findings; a problem without a level is skipped. */
  function Loop(cfg: Config, fs: seq<Finding>, t: TallyState): TallyState
  {
    if |fs| == 0 then t
    else match LevelOf(cfg, fs[0])
      case None => Loop(cfg, fs[1..], t)
      case Some(level) =>
        var next := Step(cfg, t, Leveled(fs[0], level));
        if next.stop.Completed? then Loop(cfg, fs[1..], next) else next
  }

  const Initial: TallyState := TallyState(0, 0, [], [], [], Completed)

  /** The tally over all findings, starting from zero counters and empty groups. */
  function Tally(cfg: Config, fs: seq<Finding>): TallyState
  {
    Loop(cfg, fs, Initial)
  }

  // ---------------------------------------------------------------------------
  // An independent description of the outcome, in terms of the sequence of
  // problems that have a level.

  /** The findings that get a level, in order, with their level. */
  function Retain(cfg: Config, fs: seq<Finding>): (r: seq<Leveled>)
    ensures |r| <= |fs|
    ensures forall i :: 0 <= i < |r| ==> r[i].finding in fs && LevelOf(cfg, r[i].finding) == Some(r[i].level)
    ensures forall i :: 0 <= i < |fs| && LevelOf(cfg, fs[i]).Some? ==> Leveled(fs[i], LevelOf(cfg, fs[i]).value) in r
    ensures (forall i :: 0 <= i < |fs| ==> LevelOf(cfg, fs[i]).None?) ==> r == []
  {
    if |fs| == 0 then []
    else
      assert forall i :: 1 <= i < |fs| ==> fs[i] == fs[1..][i - 1];
      match LevelOf(cfg, fs[0])
      case None => Retain(cfg, fs[1..])
      case Some(level) => [Leveled(fs[0], level)] + Retain(cfg, fs[1..])
  }

  /** Retaining commutes with concatenation, so the levelled problems keep the
      order of the findings. */
  lemma {:induction false} RetainAppend(cfg: Config, a: seq<Finding>, b: seq<Finding>)
    ensures Retain(cfg, a + b) == Retain(cfg, a) + Retain(cfg, b)
  {
    if |a| == 0 {
      assert a + b == b;
    } else {
      assert (a + b)[0] == a[0];
      assert (a + b)[1..] == a[1..] + b;
      RetainAppend(cfg, a[1..], b);
    }
  }

  /** How many of `ps` have the level `level`. */
  function CountLevel(ps: seq<Leveled>, level: LogLevel): nat
  {
    if |ps| == 0 then 0
    else CountLevel(ps[..|ps| - 1], level) + (if ps[|ps| - 1].level == level then 1 else 0)
  }

  /** The records of those of `ps` that file into `g`, in order. */
  function Records(ps: seq<Leveled>, g: Group): seq<ProblemRecord>
  {
    if |ps| == 0 then []
    else Records(ps[..|ps| - 1], g) + (if GroupOf(ps[|ps| - 1].level) == g then [Record(ps[|ps| - 1])] else [])
  }

  /** The state after tallying exactly `ps`, with the given stop reason. */
  function Summary(cfg: Config, ps: seq<Leveled>, stop: Stop): TallyState
  {
    TallyState(
      CountLevel(ps, LogLevel.Error),
      CountLevel(ps, LogLevel.Warn),
      if cfg.xmlEnabled then Records(ps, Errors) else [],
      if cfg.xmlEnabled then Records(ps, Warnings) else [],
      if cfg.xmlEnabled then Records(ps, Infos) else [],
      stop)
  }

  /** Having tallied `ps`, a count is over its threshold. */
  predicate Breach(cfg: Config, ps: seq<Leveled>)
  {
    CountLevel(ps, LogLevel.Error) > cfg.maxErrors || CountLevel(ps, LogLevel.Warn) > cfg.maxWarnings
  }

  /** The stop reason after tallying `ps`: errors are checked first. */
  function StopFor(cfg: Config, ps: seq<Leveled>): (s: Stop)
    ensures s.Completed? <==> !Breach(cfg, ps)
    ensures s.TooManyErrors? <==> CountLevel(ps, LogLevel.Error) > cfg.maxErrors
    ensures s.TooManyWarnings? ==> CountLevel(ps, LogLevel.Warn) > cfg.maxWarnings
  {
    var errors := CountLevel(ps, LogLevel.Error);
    var warnings := CountLevel(ps, LogLevel.Warn);
    if errors > cfg.maxErrors then TooManyErrors(errors)
    else if warnings > cfg.maxWarnings then TooManyWarnings(warnings)
    else Completed
  }

  /** No non-empty prefix of `ps` breaches a threshold. */
  predicate NoBreach(cfg: Config, ps: seq<Leveled>)
  {
    forall i :: 1 <= i <= |ps| ==> !Breach(cfg, ps[..i])
  }

  /** The prefix of length `k` is the shortest one that breaches. */
  predicate FirstBreachAt(cfg: Config, ps: seq<Leveled>, k: nat)
  {
    && 1 <= k <= |ps|
    && Breach(cfg, ps[..k])
    && forall i :: 1 <= i < k ==> !Breach(cfg, ps[..i])
  }

  lemma StepSummary(cfg: Config, ps: seq<Leveled>, x: Leveled)
    ensures Step(cfg, Summary(cfg, ps, Completed), x) == Summary(cfg, ps + [x], StopFor(cfg, ps + [x]))
  {
    assert (ps + [x])[..|ps|] == ps;
  }

  /** No non-empty prefix of `r`, tallied after `ps`, breaches a threshold. */
  predicate NoBreachAfter(cfg: Config, ps: seq<Leveled>, r: seq<Leveled>)
  {
    forall i :: 1 <= i <= |r| ==> !Breach(cfg, ps + r[..i])
  }

  /** Tallied after `ps`, the prefix of `r` of length `k` is the shortest one that breaches. */
  predicate FirstBreachAfter(cfg: Config, ps: seq<Leveled>, r: seq<Leveled>, k: nat)
  {
    && 1 <= k <= |r|
    && Breach(cfg, ps + r[..k])
    && forall i :: 1 <= i < k ==> !Breach(cfg, ps + r[..i])
  }

  lemma ShiftPrefix(ps: seq<Leveled>, x: Leveled, rest: seq<Leveled>, i: nat)
    requires i <= |rest|
    ensures ps + ([x] + rest)[..i + 1] == (ps + [x]) + rest[..i]
  {
    assert ([x] + rest)[..i + 1] == [x] + rest[..i];
  }

  lemma ShiftNoBreach(cfg: Config, ps: seq<Leveled>, x: Leveled, rest: seq<Leveled>)
    requires !Breach(cfg, ps + [x])
    requires NoBreachAfter(cfg, ps + [x], rest)
    ensures NoBreachAfter(cfg, ps, [x] + rest)
  {
    forall i | 1 <= i <= |rest| + 1
      ensures !Breach(cfg, ps + ([x] + rest)[..i])
    {
      ShiftPrefix(ps, x, rest, i - 1);
      assert rest[..0] == [];
    }
  }

  lemma ShiftFirstBreach(cfg: Config, ps: seq<Leveled>, x: Leveled, rest: seq<Leveled>, k: nat)
    requires !Breach(cfg, ps + [x])
    requires FirstBreachAfter(cfg, ps + [x], rest, k)
    ensures FirstBreachAfter(cfg, ps, [x] + rest, k + 1)
    ensures ps + ([x] + rest)[..k + 1] == (ps + [x]) + rest[..k]
  {
    ShiftPrefix(ps, x, rest, k);
    forall i | 1 <= i < k + 1
      ensures !Breach(cfg, ps + ([x] + rest)[..i])
    {
      ShiftPrefix(ps, x, rest, i - 1);
      assert rest[..0] == [];
    }
  }

  /** What the loop does when started after `ps` has been tallied without a
      breach: it completes exactly when no prefix of the findings' levelled
      problems, tallied after `ps`, breaches, and then holds the summary of all
      of them; otherwise it holds the summary up to the first breach. */
  ghost predicate LoopMeets(cfg: Config, fs: seq<Finding>, ps: seq<Leveled>)
  {
    var t := Loop(cfg, fs, Summary(cfg, ps, Completed));
    var r := Retain(cfg, fs);
    && (t.stop.Completed? ==> NoBreachAfter(cfg, ps, r) && t == Summary(cfg, ps + r, Completed))
    && (!t.stop.Completed? ==>
          exists k: nat :: FirstBreachAfter(cfg, ps, r, k) && t == Summary(cfg, ps + r[..k], StopFor(cfg, ps + r[..k])))
  }

  /** The loop, started after `ps` has been tallied without a breach. */
  lemma {:induction false} LoopFrom(cfg: Config, fs: seq<Finding>, ps: seq<Leveled>)
    ensures LoopMeets(cfg, fs, ps)
    decreases |fs|, 2
  {
    if |fs| == 0 {
      assert ps + Retain(cfg, fs) == ps;
    } else if LevelOf(cfg, fs[0]).None? {
      LoopSkip(cfg, fs, ps);
    } else {
      LoopTake(cfg, fs, ps);
    }
  }

  /** A finding without a level leaves the state and the retained problems alone. */
  lemma {:induction false} LoopSkip(cfg: Config, fs: seq<Finding>, ps: seq<Leveled>)
    requires |fs| > 0 && LevelOf(cfg, fs[0]).None?
    ensures LoopMeets(cfg, fs, ps)
    decreases |fs|, 1
  {
    assert Retain(cfg, fs) == Retain(cfg, fs[1..]);
    assert Loop(cfg, fs, Summary(cfg, ps, Completed)) == Loop(cfg, fs[1..], Summary(cfg, ps, Completed));
    LoopFrom(cfg, fs[1..], ps);
  }

  /** The first step after `ps` tallies the first finding's levelled problem. */
  function FirstStep(cfg: Config, fs: seq<Finding>, ps: seq<Leveled>): TallyState
    requires |fs| > 0 && LevelOf(cfg, fs[0]).Some?
  {
    Step(cfg, Summary(cfg, ps, Completed), Leveled(fs[0], LevelOf(cfg, fs[0]).value))
  }

  /** A finding with a level is tallied; the loop goes on only without a breach. */
  lemma {:induction false} LoopTake(cfg: Config, fs: seq<Finding>, ps: seq<Leveled>)
    requires |fs| > 0 && LevelOf(cfg, fs[0]).Some?
    ensures LoopMeets(cfg, fs, ps)
    decreases |fs|, 1
  {
    var x := Leveled(fs[0], LevelOf(cfg, fs[0]).value);
    StepSummary(cfg, ps, x);
    if FirstStep(cfg, fs, ps).stop.Completed? {
      LoopGo(cfg, fs, ps);
    } else {
      LoopHalt(cfg, fs, ps);
    }
  }

  /** The first levelled problem breaches: the loop stops right there. */
  lemma LoopHalt(cfg: Config, fs: seq<Finding>, ps: seq<Leveled>)
    requires |fs| > 0 && LevelOf(cfg, fs[0]).Some?
    requires !FirstStep(cfg, fs, ps).stop.Completed?
    ensures LoopMeets(cfg, fs, ps)
  {
    var r := Retain(cfg, fs);
    var x := Leveled(fs[0], LevelOf(cfg, fs[0]).value);
    assert r == [x] + Retain(cfg, fs[1..]);
    StepSummary(cfg, ps, x);
    assert Loop(cfg, fs, Summary(cfg, ps, Completed)) == FirstStep(cfg, fs, ps);
    assert ps + r[..1] == ps + [x];
    assert FirstBreachAfter(cfg, ps, r, 1);
  }

  /** The first levelled problem does not breach: the loop goes on after it. */
  lemma {:induction false} LoopGo(cfg: Config, fs: seq<Finding>, ps: seq<Leveled>)
    requires |fs| > 0 && LevelOf(cfg, fs[0]).Some?
    requires FirstStep(cfg, fs, ps).stop.Completed?
    ensures LoopMeets(cfg, fs, ps)
    decreases |fs|, 0
  {
    LoopFrom(cfg, fs[1..], ps + [Leveled(fs[0], LevelOf(cfg, fs[0]).value)]);
    LoopPrepend(cfg, fs, ps);
  }

  /** What the loop does after a first step without a breach, in terms of what
      it does on the remaining findings. */
  lemma LoopPrepend(cfg: Config, fs: seq<Finding>, ps: seq<Leveled>)
    requires |fs| > 0 && LevelOf(cfg, fs[0]).Some?
    requires FirstStep(cfg, fs, ps).stop.Completed?
    requires LoopMeets(cfg, fs[1..], ps + [Leveled(fs[0], LevelOf(cfg, fs[0]).value)])
    ensures LoopMeets(cfg, fs, ps)
  {
    var x := Leveled(fs[0], LevelOf(cfg, fs[0]).value);
    var rest := Retain(cfg, fs[1..]);
    assert Retain(cfg, fs) == [x] + rest;
    StepSummary(cfg, ps, x);
    assert FirstStep(cfg, fs, ps) == Summary(cfg, ps + [x], Completed);
    var t := Loop(cfg, fs[1..], Summary(cfg, ps + [x], Completed));
    assert Loop(cfg, fs, Summary(cfg, ps, Completed)) == t;
    if t.stop.Completed? {
      PrependDone(cfg, ps, x, rest, t);
    } else {
      var k: nat :| FirstBreachAfter(cfg, ps + [x], rest, k)
               && t == Summary(cfg, (ps + [x]) + rest[..k], StopFor(cfg, (ps + [x]) + rest[..k]));
      PrependBreach(cfg, ps, x, rest, t, k);
    }
  }

  lemma PrependDone(cfg: Config, ps: seq<Leveled>, x: Leveled, rest: seq<Leveled>, t: TallyState)
    requires !Breach(cfg, ps + [x])
    requires NoBreachAfter(cfg, ps + [x], rest) && t == Summary(cfg, (ps + [x]) + rest, Completed)
    ensures NoBreachAfter(cfg, ps, [x] + rest) && t == Summary(cfg, ps + ([x] + rest), Completed)
  {
    ShiftNoBreach(cfg, ps, x, rest);
    assert ps + ([x] + rest) == (ps + [x]) + rest;
  }

  lemma PrependBreach(cfg: Config, ps: seq<Leveled>, x: Leveled, rest: seq<Leveled>, t: TallyState, k: nat)
    requires !Breach(cfg, ps + [x])
    requires FirstBreachAfter(cfg, ps + [x], rest, k)
    requires t == Summary(cfg, (ps + [x]) + rest[..k], StopFor(cfg, (ps + [x]) + rest[..k]))
    ensures exists k': nat :: FirstBreachAfter(cfg, ps, [x] + rest, k')
              && t == Summary(cfg, ps + ([x] + rest)[..k'], StopFor(cfg, ps + ([x] + rest)[..k']))
  {
    ShiftFirstBreach(cfg, ps, x, rest, k);
  }

  /** The tally's outcome, fully described: the loop completes exactly when no
      prefix of the levelled problems breaches a threshold, and then it holds the
      counts and groups of all of them; otherwise it holds those of the shortest
      breaching prefix (the breaching problem included, nothing after it) and
      says which threshold was breached. Problems without a level play no part. */
  lemma TallyOutcome(cfg: Config, fs: seq<Finding>)
    ensures var r := Retain(cfg, fs);
            var t := Tally(cfg, fs);
            && (t.Success() <==> NoBreach(cfg, r))
            && (t.Success() ==> t == Summary(cfg, r, Completed))
            && (!t.Success() ==> exists k: nat :: FirstBreachAt(cfg, r, k) && t == Summary(cfg, r[..k], StopFor(cfg, r[..k])))
  {
    var r := Retain(cfg, fs);
    assert Initial == Summary(cfg, [], Completed);
    LoopFrom(cfg, fs, []);
    assert [] + r == r;
    forall i | 0 <= i <= |r|
      ensures [] + r[..i] == r[..i]
    {
    }
    var t := Tally(cfg, fs);
    if !t.Success() {
      var k: nat :| FirstBreachAfter(cfg, [], r, k) && t == Summary(cfg, [] + r[..k], StopFor(cfg, [] + r[..k]));
      assert FirstBreachAt(cfg, r, k);
    }
  }

  /** Only the shortest breaching prefix qualifies as the first breach. */
  lemma FirstBreachUnique(cfg: Config, ps: seq<Leveled>, k: nat, m: nat)
    requires FirstBreachAt(cfg, ps, k) && FirstBreachAt(cfg, ps, m)
    ensures k == m
  {
  }

  /** The error group holds one record per ERROR problem, the warning group one
      per WARN problem, and every problem is filed in exactly one group. */
  lemma {:induction false} GroupsPartition(ps: seq<Leveled>)
    ensures |Records(ps, Errors)| == CountLevel(ps, LogLevel.Error)
    ensures |Records(ps, Warnings)| == CountLevel(ps, LogLevel.Warn)
    ensures |Records(ps, Errors)| + |Records(ps, Warnings)| + |Records(ps, Infos)| == |ps|
  {
    if |ps| > 0 {
      GroupsPartition(ps[..|ps| - 1]);
    }
  }

  /** Without problems, the tally succeeds with empty counts and empty groups. */
  lemma EmptyTally(cfg: Config)
    ensures Tally(cfg, []) == TallyState(0, 0, [], [], [], Completed)
  {
  }
}

=== FILE: text.dfy ===
/** String utilities the runner relies on: `StringUtil.replace` (replace every
    occurrence, scanning left to right), the decimal rendering of `Int.toString`
    for non-negative values and its inverse, and a last-separator split. */
module Text {
  import opened Wrappers
  import opened Seqs

  /** `p` occurs in `s` at position `i`. */
  predicate OccursAt(s: string, p: string, i: nat)
  {
    i + |p| <= |s| && s[i..i + |p|] == p
  }

  /** `p` occurs somewhere in `s`. */
  predicate Contains(s: string, p: string)
  {
    exists i: nat :: i <= |s| && OccursAt(s, p, i)
  }

  /** Replaces every occurrence of `p` in `s` by `r`, leftmost first; after a
      match the scan resumes behind the matched text, so matches never overlap.
      An empty pattern replaces nothing. */
  function Replace(s: string, p: string, r: string): string
    decreases |s|
  {
    if |p| == 0 || |s| == 0 then s
    else if OccursAt(s, p, 0) then r + Replace(s[|p|..], p, r)
    else [s[0]] + Replace(s[1..], p, r)
  }

  lemma OccursAtShift(s: string, p: string, i: nat)
    requires |s| > 0
    ensures OccursAt(s, p, i + 1) <==> OccursAt(s[1..], p, i)
  {
    if i + 1 + |p| <= |s| {
      assert s[i + 1..i + 1 + |p|] == s[1..][i..i + |p|];
    }
  }

  /** A text without any occurrence of the pattern comes back unchanged. */
  lemma {:induction false} ReplaceAbsent(s: string, p: string, r: string)
    requires !Contains(s, p)
    ensures Replace(s, p, r) == s
    decreases |s|
  {
    if |p| == 0 || |s| == 0 {
    } else {
      assert !OccursAt(s, p, 0);
      forall i: nat
        ensures !OccursAt(s[1..], p, i)
      {
        OccursAtShift(s, p, i);
      }
      ReplaceAbsent(s[1..], p, r);
    }
  }

  /** The replacement keeps everything in front of the first occurrence,
      substitutes that occurrence, and carries on behind it. */
  lemma {:induction false} ReplaceFirst(s: string, p: string, r: string, k: nat)
    requires |p| > 0
    requires OccursAt(s, p, k)
    requires forall j: nat :: j < k ==> !OccursAt(s, p, j)
    ensures Replace(s, p, r) == s[..k] + r + Replace(s[k + |p|..], p, r)
    decreases k
  {
    if k == 0 {
      assert s[..0] == [];
    } else {
      assert !OccursAt(s, p, 0);
      NoEarlierShift(s, p, k);
      var tail := s[1..];
      ReplaceFirst(tail, p, r, k - 1);
      var after := Replace(tail[k - 1 + |p|..], p, r);
      assert tail[k - 1 + |p|..] == s[k + |p|..];
      ConsPrefix(s, k);
      assert Replace(s, p, r) == [s[0]] + Replace(tail, p, r);
      Assoc([s[0]], tail[..k - 1] + r, after);
      Assoc([s[0]], tail[..k - 1], r);
    }
  }

  lemma NoEarlierShift(s: string, p: string, k: nat)
    requires 0 < k && OccursAt(s, p, k)
    requires forall j: nat :: j < k ==> !OccursAt(s, p, j)
    ensures OccursAt(s[1..], p, k - 1)
    ensures forall j: nat :: j < k - 1 ==> !OccursAt(s[1..], p, j)
  {
    OccursAtShift(s, p, k - 1);
    forall j: nat | j < k - 1
      ensures !OccursAt(s[1..], p, j)
    {
      OccursAtShift(s, p, j);
    }
  }

  /** Decimal digit of a value below ten. */
  function Digit(d: nat): (c: char)
    requires d < 10
    ensures '0' <= c <= '9' && c as int - '0' as int == d
  {
    ['0', '1', '2', '3', '4', '5', '6', '7', '8', '9'][d]
  }

  predicate IsDigit(c: char)
  {
    '0' <= c <= '9'
  }

  predicate AllDigits(s: string)
  {
    forall i :: 0 <= i < |s| ==> IsDigit(s[i])
  }

  /** Decimal rendering of a non-negative number without leading zeros, as
      Kotlin's `Int.toString` produces it. */
  function NatToString(n: nat): (s: string)
    ensures |s| > 0 && AllDigits(s)
    ensures |s| > 1 ==> s[0] != '0'
  {
    if n < 10 then [Digit(n)] else NatToString(n / 10) + [Digit(n % 10)]
  }

  /** Value of a non-empty string of digits, read most significant first. */
  function DigitsValue(s: string): nat
    requires |s| > 0 && AllDigits(s)
  {
    var d := (s[|s| - 1] as int - '0' as int) as nat;
    if |s| == 1 then d else DigitsValue(s[..|s| - 1]) * 10 + d
  }

  /** Parses a decimal number; `None` for the empty string or a non-digit. */
  function ParseNat(s: string): Option<nat>
  {
    if |s| > 0 && AllDigits(s) then Some(DigitsValue(s)) else None
  }

  /** Reading back a rendered number gives the number. */
  lemma {:induction false} ParseNatToString(n: nat)
    ensures ParseNat(NatToString(n)) == Some(n)
  {
    DigitsValueToString(n);
  }

  lemma {:induction false} DigitsValueToString(n: nat)
    ensures DigitsValue(NatToString(n)) == n
  {
    if n >= 10 {
      var s := NatToString(n);
      assert s[..|s| - 1] == NatToString(n / 10);
      DigitsValueToString(n / 10);
    }
  }

  /** Position of the last `c` in `s`, if any. */
  function LastIndexOf(s: string, c: char): (r: Option<nat>)
    ensures r.Some? ==> r.value < |s| && s[r.value] == c
                        && forall j :: r.value < j < |s| ==> s[j] != c
    ensures r.None? ==> forall j :: 0 <= j < |s| ==> s[j] != c
  {
    if |s| == 0 then None
    else if s[|s| - 1] == c then Some(|s| - 1)
    else LastIndexOf(s[..|s| - 1], c)
  }

  /** Splits `s` at its last `c` into the text before and the text after. */
  function SplitLast(s: string, c: char): Option<(string, string)>
  {
    match LastIndexOf(s, c)
    case None => None
    case Some(i) => Some((s[..i], s[i + 1..]))
  }

  /** When the tail holds no separator, the split finds the separator in front of it. */
  lemma SplitLastAppend(a: string, c: char, b: string)
    requires forall j :: 0 <= j < |b| ==> b[j] != c
    ensures SplitLast(a + [c] + b, c) == Some((a, b))
  {
    var s := a + [c] + b;
    assert s[|a|] == c;
    var i := LastIndexOf(s, c);
    forall j | |a| < j < |s|
      ensures s[j] != c
    {
      assert s[j] == b[j - |a| - 1];
    }
    assert s[..|a|] == a;
    assert s[|a| + 1..] == b;
  }
}

=== FILE: wrappers.dfy ===
/** Failure-compatible wrappers used throughout the model: `Option` for values the
    host may return as `null`, `Result` for operations that can throw. */
module Wrappers {

  datatype Option<+T> = None | Some(value: T) {
    predicate IsFailure() {
      None?
    }

    function PropagateFailure<U>(): Option<U>
      requires None?
    {
      None
    }

    function Extract(): T
      requires Some?
    {
      value
    }
  }

  datatype Result<+R, +E> = Success(value: R) | Failure(error: E) {
    predicate IsFailure() {
      Failure?
    }

    function PropagateFailure<U>(): Result<U, E>
      requires Failure?
    {
      Failure(error)
    }

    function Extract(): R
      requires Success?
    {
      value
    }
  }
}

=== FILE: xml_report.dfy ===
/** The XML report: a `report` root holding the `errors`, `warnings` and
    `infos` groups, each a sequence of `problem` elements, as the runner builds
    it with JDOM. The parser reads such a tree back; the round trip shows that
    every field survives. */
module XmlReport {
  import opened Wrappers
  import opened Text

  /** A JDOM element with its attributes and content, or a text node. */
  datatype Xml = Elem(name: string, attributes: seq<(string, string)>, content: seq<Xml>) | TextNode(text: string)

  /** What one `problem` element records: the file name, the 1-based line and
      column, the inspection class, the severity attribute, the display name and
      the rendered description. */
  datatype ProblemRecord = ProblemRecord(
    file: string,
    line: nat,
    row: nat,
    javaClass: string,
    severity: string,
    displayName: string,
    description: string)

  /** `Element(name).addContent(text)`. */
  function TextElement(name: string, text: string): Xml
  {
    Elem(name, [], [TextNode(text)])
  }

  /** One `problem` element; numbers are written in decimal. */
  function ProblemElement(r: ProblemRecord): Xml
  {
    Elem("problem", [], [
      TextElement("file", r.file),
      TextElement("line", NatToString(r.line)),
      TextElement("row", NatToString(r.row)),
      TextElement("java_class", r.javaClass),
      Elem("problem_class", [("severity", r.severity)], [TextNode(r.displayName)]),
      TextElement("description", r.description)])
  }

  function ProblemElements(rs: seq<ProblemRecord>): (xs: seq<Xml>)
    ensures |xs| == |rs|
  {
    if |rs| == 0 then [] else [ProblemElement(rs[0])] + ProblemElements(rs[1..])
  }

  /** The report root with its three groups, in the order errors, warnings, infos. */
  function ReportElement(errors: seq<ProblemRecord>, warnings: seq<ProblemRecord>, infos: seq<ProblemRecord>): Xml
  {
    Elem("report", [], [
      Elem("errors", [], ProblemElements(errors)),
      Elem("warnings", [], ProblemElements(warnings)),
      Elem("infos", [], ProblemElements(infos))])
  }

  /** The text of an attribute-free element `name` holding a single text node. */
  function ReadText(x: Xml, name: string): Option<string>
  {
    if x.Elem? && x.name == name && x.attributes == [] && |x.content| == 1 && x.content[0].TextNode?
    then Some(x.content[0].text)
    else None
  }

  function ReadNumber(x: Xml, name: string): Option<nat>
  {
    var t :- ReadText(x, name);
    ParseNat(t)
  }

  /** Reads one `problem` element. */
  function ReadProblem(x: Xml): Option<ProblemRecord>
  {
    if !(x.Elem? && x.name == "problem" && x.attributes == [] && |x.content| == 6) then None
    else
      var c := x.content;
      var file :- ReadText(c[0], "file");
      var line :- ReadNumber(c[1], "line");
      var row :- ReadNumber(c[2], "row");
      var javaClass :- ReadText(c[3], "java_class");
      var pc := c[4];
      if !(pc.Elem? && pc.name == "problem_class" && |pc.attributes| == 1 && pc.attributes[0].0 == "severity"
           && |pc.content| == 1 && pc.content[0].TextNode?)
      then None
      else
        var description :- ReadText(c[5], "description");
        Some(ProblemRecord(file, line, row, javaClass, pc.attributes[0].1, pc.content[0].text, description))
  }

  function ReadProblems(xs: seq<Xml>): Option<seq<ProblemRecord>>
  {
    if |xs| == 0 then Some([])
    else
      var r :- ReadProblem(xs[0]);
      var rest :- ReadProblems(xs[1..]);
      Some([r] + rest)
  }

  function ReadGroup(x: Xml, name: string): Option<seq<ProblemRecord>>
  {
    if x.Elem? && x.name == name && x.attributes == [] then ReadProblems(x.content) else None
  }

  /** Reads a report back into its three groups. */
  function ReadReport(x: Xml): Option<(seq<ProblemRecord>, seq<ProblemRecord>, seq<ProblemRecord>)>
  {
    if !(x.Elem? && x.name == "report" && x.attributes == [] && |x.content| == 3) then None
    else
      var errors :- ReadGroup(x.content[0], "errors");
      var warnings :- ReadGroup(x.content[1], "warnings");
      var infos :- ReadGroup(x.content[2], "infos");
      Some((errors, warnings, infos))
  }

  lemma ReadProblemElement(r: ProblemRecord)
    ensures ReadProblem(ProblemElement(r)) == Some(r)
  {
    ParseNatToString(r.line);
    ParseNatToString(r.row);
  }

  lemma {:induction false} ReadProblemElements(rs: seq<ProblemRecord>)
    ensures ReadProblems(ProblemElements(rs)) == Some(rs)
  {
    if |rs| > 0 {
      ReadProblemElement(rs[0]);
      ReadProblemElements(rs[1..]);
      assert ProblemElements(rs)[1..] == ProblemElements(rs[1..]);
      assert [rs[0]] + rs[1..] == rs;
    }
  }

  /** Reading a written report gives back exactly the three groups, every field
      of every entry, in order. */
  lemma {:induction false} ReadReportElement(errors: seq<ProblemRecord>, warnings: seq<ProblemRecord>, infos: seq<ProblemRecord>)
    ensures ReadReport(ReportElement(errors, warnings, infos)) == Some((errors, warnings, infos))
  {
    var x := ReportElement(errors, warnings, infos);
    ReadGroupElement("errors", errors);
    ReadGroupElement("warnings", warnings);
    ReadGroupElement("infos", infos);
    assert ReadGroup(x.content[0], "errors") == Some(errors);
    assert ReadGroup(x.content[1], "warnings") == Some(warnings);
    assert ReadGroup(x.content[2], "infos") == Some(infos);
  }

  lemma ReadGroupElement(name: string, rs: seq<ProblemRecord>)
    ensures ReadGroup(Elem(name, [], ProblemElements(rs)), name) == Some(rs)
  {
    ReadProblemElements(rs);
  }
}
